=== FILE: README.md ===
# Fiber render/commit core of build-your-own-react, in Dafny

This project models `src/index.js` of gagbo/build-your-own-react. It is a small
React-like renderer. `createElement` builds an immutable element tree. `render`
seeds a work-in-progress root fiber. `workLoop` runs in idle slices and performs
one *unit of work* (`performAndPlanUnitOfWork`) per fiber. Each unit gives the
fiber a host node, chains one child fiber per child element, and picks the next
fiber depth-first. Once no unit is left, `commitRoot` / `commitWork` append every
fiber's host node under its parent's host node in one pass and clear the root.

The model is pure and explicit. The module-level globals `nextUnitOfWork` and
`wipRoot` are fields of an `Engine` value. Fibers live in an arena (a `seq`) and
their object references are indices. The DOM is a `HostTree`: the nodes created
so far plus a log of `appendChild` calls. The idle deadline is a function
`remaining(k)`: the value `deadline.timeRemaining()` returns after the k-th unit
of a slice.

Modules follow the program's structure:
- `Elements`: `createElement`, `createTextElement`, and the pre-order listing of a tree.
- `Host`: `createDom` and its `isProperty` filter.
- `Fibers`: the fiber arena and the unit of work. It has a functional form, `UnitOfWork`, and the source's loops, `PerformAndPlanUnitOfWork`.
- `Links` and `Planning`: what the links describe and what one unit does to them.
- `Engine`: `render`, a run of units, and the commit walk.
- `Traversal`: the walk invariant and the exactly-once, pre-order theorem for the units of work.
- `Commit`: the same theorem for the commit walk.
- `Scheduler`: `workLoop` and the chain of idle callbacks.
- `Mount`: the host tree after `render`, a complete run and the commit. Every non-root fiber owns a fresh host node. The root holds the container, or, for a `null` container, the node its own unit creates. In the append log, every fiber's host node receives the nodes of its child elements in order. DOM exceptions are not modelled (see "Left out").

`render`'s container is `Option<HostId>`. `None` stands for JavaScript `null`
and `Some(id)` for a node already in the host tree.

## Model

| member | source | states |
|---|---|---|
| Elements.CreateTextElement | src/index.js:164-174 | A text element has kind `TEXT_ELEMENT`, no children, and exactly one prop, `nodeValue`, holding the text. |
| Elements.CreateElement | src/index.js:148-162 | The type is kept. Every given prop except `children` is kept with its value. There is one child per argument, in argument order. An object argument is kept as it is. A primitive argument becomes a text leaf carrying that value. |
| Host.Properties | src/index.js:123-129 | A key is copied exactly when it is a prop other than `children`, and it keeps its value. |
| Host.NewNode | src/index.js:116-133 | The node is a text node exactly when the type is `TEXT_ELEMENT`. Otherwise it is a tag named after the type, or "undefined" when there is no type. Its attributes are exactly the props other than `children`, with their values. |
| Host.CreateDom | src/index.js:116-133 | The call adds exactly one new node, at the next free id, and leaves the existing nodes and the append log alone. The new node is `NewNode` of the fiber's type and props. |
| Fibers.EnsureDom | src/index.js:68-70 | A fiber that already has a host node is returned unchanged, and the host is untouched. A fiber without one gets a single new node at the next free id, built by `NewNode` from the fiber's own type and props. Nothing else about the fiber changes. |
| Fibers.ChildFibers | src/index.js:77-95 | There is one fiber per element, in element order. Each copies its element's type, props and children, has the processing fiber as parent, and has no host node and no first child. Each links to the next as sibling, and the last has no sibling. |
| Fibers.UnitOfWork | src/index.js:65-114 | The arena stays well formed, and the new fibers are appended after the existing ones. Every other fiber is unchanged. The processed fiber changes only in its host node and its first-child link, which points to the first new fiber when there are children. A fiber without a host node gets the node `NewNode` builds from its type and props, at the next free id. The host log and the existing nodes are unchanged. The returned next unit is the planned one. |
| Fibers.PerformAndPlanUnitOfWork | src/index.js:65-114 | The source's two loops, child chaining and then walking up, compute exactly `UnitOfWork`. |
| Fibers.LinkChildren | src/index.js:72-95 | The chaining loop yields the fibers of `ChildFibers` and sets the first-child link only when there is a child. |
| Fibers.PlanNext | src/index.js:97-113 | The walk-up loop returns exactly `NextUnit`: the first child if there is one, otherwise the walk up. |
| Fibers.WalkUp | src/index.js:103-113 | The walk up returns the fiber's own next sibling when it has one. A fiber with neither a sibling nor a parent yields `null`. Any fiber found lies in the arena. `Links.WalkUpHeadsCont` characterizes the result fully. |
| Fibers.NextUnit | src/index.js:97-113 | The next unit is the fiber's first child whenever it has one. Any unit returned lies in the arena. Otherwise it is the result of the walk up. |
| Fibers.AddChildrenValid | src/index.js:73-95 | Storing the processed fiber and appending its children keeps all parent, first-child and sibling links well formed. |
| Links.WalkUpHeadsCont | src/index.js:103-113 | The walk up finds nothing exactly when no later sibling of the fiber or of any ancestor exists. Otherwise it returns the first fiber of that remaining walk. |
| Planning.ChildChainMirrorsElements | src/index.js:72-95 | A fiber with n child elements gets a chain of exactly n new fibers. They mirror the elements in order, and each has the fiber as parent and no host node yet. |
| Planning.PlanPending | src/index.js:97-113 | After a unit on an unprocessed fiber, the fibers still to start are its new children in order, followed by what remained before. So the next unit is the first child, else the nearest later sibling up the tree, else none. |
| Engine.Render | src/index.js:135-146 | The container must be `null` or a node of the host tree. The seeded state is well formed and the host tree is untouched. The root is the only fiber and is both the next unit and the work-in-progress root. It holds the container as its host node and the element as its only child, with no type, props or links. |
| Engine.Step | src/index.js:46-47 | One unit keeps the state well formed and keeps the root. It adds exactly one fiber per child element of the unit, and appends nothing to the host. |
| Engine.Run | src/index.js:46-49 | A run of at most `units` units stops early only when no unit is left. It starts with the current next unit and never appends to the host. |
| Engine.CommitOrder | src/index.js:29-42 | The commit walk from a fiber reaches only that fiber and later ones. Under a fiber with a parent, every fiber reached has a parent. |
| Engine.Appends | src/index.js:35-38 | When every parent has a host node, there is exactly one append per fiber walked. It places the fiber's host node under its parent fiber's host node, in walk order. |
| Engine.RootCommitOrder | src/index.js:24-25 | The commit starts at the root's first child, so the root itself is never appended. Every fiber walked can be committed exactly when it has a host node. |
| Engine.CommitRoot | src/index.js:24-27 | The commit leaves fibers, nodes and the next unit alone. It appends the walk's appends to the log and clears the root. |
| Traversal.RenderInv | src/index.js:135-146 | The seeded state satisfies the walk invariant. Only the root is pending, and what is left to visit is the root and then the rendered tree in pre-order. |
| Traversal.StepInv | src/index.js:65-114 | A unit of work keeps the walk invariant. Pending fibers are distinct and have no children yet, and every other fiber has a host node and a child chain that mirrors its elements. |
| Traversal.StepTodo | src/index.js:65-114 | A unit of work removes exactly its own element from the front of what is left to visit. |
| Traversal.RunWalksTodo | src/index.js:44-49 | With a large enough budget, the run visits the remaining elements exactly in pre-order. Each pending or newly created fiber is visited once, and the run ends with no next unit. |
| Traversal.RunKeepsInv | src/index.js:44-49 | Any run keeps the walk invariant. |
| Traversal.RenderVisitsEachElementOnce | src/index.js:44-146 | After `render`, Size+1 units visit the root and then every element in pre-order. Each element gets exactly one fiber, every fiber is visited once, and no unit is left. |
| Commit.FinishedIsComplete | src/index.js:51-52 | Once no unit is left, every fiber has a host node, and every child chain mirrors its fiber's child elements. |
| Commit.CommitOrderIsPreOrder | src/index.js:29-42 | The commit walk from a fiber lists the subtrees of it and its later siblings in pre-order. |
| Commit.CommitOrderLinksForward | src/index.js:39-40 | The walk reaches a fiber's first child and its next sibling only after the fiber itself. |
| Commit.CommitOrderUnder | src/index.js:29-42 | Every fiber the walk from `x` reaches descends from `x` or from one of its later siblings. |
| Commit.CommitOrderDistinct | src/index.js:29-42 | The commit walk never reaches a fiber twice. |
| Commit.RootCommitOrderIsPreOrder | src/index.js:24-42 | After a full run from `render`, the commit walk lists the rendered tree in pre-order and never includes the root. |
| Commit.RenderThenCommit | src/index.js:24-41 | After a full run from `render`, `commitRoot` makes exactly one append per element, and only these appends reach the log. The fibers appended follow pre-order, which is the order the units visited, and the root is never appended. The root is cleared. |
| Commit.CommitAppendsEachOnceInOrder | src/index.js:24-41 | After a full run from `render`, the commit reaches every non-root fiber exactly once, each before its first child and next sibling. Every fiber's child chain mirrors its child elements. |
| Scheduler.RunSnoc | src/index.js:46-47 | A run that used its whole budget and still has work extends by exactly one more unit. |
| Scheduler.Advance | src/index.js:47 | One loop iteration is the next unit of the run. |
| Scheduler.PerformSlice | src/index.js:45-49 | The loop runs at least one unit when there is work. It stops only when no work is left or when the deadline read after the last unit is below 1, and never earlier. |
| Scheduler.CommitKeepsInv | src/index.js:51-53 | A finished walk can be committed: every fiber has a host node, and the commit keeps the walk invariant. |
| Scheduler.WorkLoop | src/index.js:44-53 | A slice is a prefix of the run. The root is committed exactly when no unit is left and a root is pending, and then the commit is `commitRoot` of the finished run. Otherwise the state is the run's state. A slice that leaves a pending root uncommitted performed at least one unit and left work. An idle engine is left unchanged. |
| Scheduler.RunAdd | src/index.js:44-49 | A run that used its whole budget, followed by a second run, is one run of the summed budget. The units visited concatenate. |
| Scheduler.RunFinishedAgree | src/index.js:44-49 | Two runs from the same state that both leave no work end in the same state, whatever their budgets. |
| Scheduler.PendingCallback | src/index.js:44-56 | One callback before any commit extends the run so far by the units the slice performed. It commits exactly when a root is pending and the slice ends its run, and then it commits that whole run. Otherwise, with a root pending, it performs at least one unit and leaves work. |
| Scheduler.Drive | src/index.js:44-63 | Over any sequence of idle callbacks without a new `render`, the root is committed at most once, and only if one was pending. The ghost `total` counts the units all slices performed. Before a commit the state is that run's state, and a commit commits exactly the final state of the finished run. While a root is pending and uncommitted, `total` is at least the number of callbacks and work is left. |
| Scheduler.RenderThenDrive | src/index.js:44-63 | After `render`, however the units fall into idle callbacks, a commit, if one happens, is exactly `commitRoot` of the complete run `Commit.RenderThenCommit` describes. Without a commit the root is still pending. More callbacks than the tree has elements always commit. |
| Mount.StepHostOk | src/index.js:65-133 | A unit of work keeps the host nodes of the fibers in the host tree and pairwise distinct. The node of every non-root fiber stays the one `NewNode` builds from that fiber. |
| Mount.RunHostOk | src/index.js:44-49 | Any run keeps those same facts. |
| Mount.RootDom | src/index.js:135-146 | After `render` and a complete run, the root's host node is the container. With a `null` container it is the node the root's own unit created, because `!fiber.dom` holds for `null`. |
| Mount.RunFreshFrom | src/index.js:65-70 | Once every non-root fiber's node is at or after a given id, any run keeps it so: new fibers get only freshly created nodes. |
| Mount.RunKeepsNodes | src/index.js:65-70 | A run only adds host nodes. The node count never shrinks, and every node that existed before, the container included, keeps its place and content. |
| Mount.CommitOrderByParent | src/index.js:29-41 | The commit walk from a fiber reaches the children of any fiber `j` in the order of `j`'s child chain. From a child of `j` it reaches the rest of the chain. From elsewhere it reaches the whole chain when it reaches `j`, and none of it otherwise. |
| Mount.AppendsUnder | src/index.js:35-38 | When no two fibers share a host node, the appends along a walk place under the node of fiber `j` exactly the nodes of the walked fibers whose parent is `j`, in walk order. |
| Mount.RunCreatesOwnNodes | src/index.js:65-146 | After `render` and a complete run, every fiber has a host node and no two share one. Each non-root fiber's node was created during the run, and it is `NewNode` of that fiber's type and props. |
| Mount.CommitMountsTree | src/index.js:24-41 | After `render` and a complete run, `commitRoot` appends under each fiber's host node exactly the host nodes of its child-element fibers, in element order. The root's node is the container, or for a `null` container the first node the run created. |
| Mount.CommitAppendsFreshNodes | src/index.js:24-41 | The nodes the commit appends are pairwise distinct. None of them is the container or any other node that existed before `render`. |

## Left out

- DOM calls (`document.createElement`, `createTextNode`, `appendChild`) are not modelled as effects. Node creation allocates an index in `HostTree.nodes`, and `appendChild` is an entry of the append log.
- `window.requestIdleCallback` and `deadline.timeRemaining()` are not modelled; the deadline is a parameter function `remaining`. `Drive` stands in for the chain of idle callbacks; no real scheduling or timing is modelled.
- A `null` props argument of `createElement` is passed as the empty map, since spreading `null` adds no entries.
- `null`, arrays, functions and nested objects as props or children are not modelled. A prop value is a string, an integer, a boolean or undefined, and a child argument is an element or such a primitive. JavaScript numbers are modelled as unbounded integers.
- The JSX demo (lines 196-217) and the theme switcher (lines 221-239) are not modelled. They are uses of the core, not part of it.
- Reconciliation, effect tags, deletions, `alternate` links and hooks are not in `src/index.js`, so they are not modelled.
- DOM exceptions are not modelled. The append log records every `appendChild` the commit walk calls, as if each call succeeded. On three inputs the browser would throw instead:
  - a text node as a parent, for example the outer node of `createElement("TEXT_ELEMENT", null, "x")`;
  - a text node passed as `render`'s container;
  - a tag name `document.createElement` rejects, such as `""`.

  The source then stops at the throw. The commit is left partial, `wipRoot` stays set, and `workLoop` is not re-registered. The model's theorems (`Mount.CommitMountsTree` among them) describe the log the walk would produce.
- Scheduler.WorkLoop: the commit assumes that every fiber has a host node, which holds once the walk is finished (`FinishedIsComplete`). The source would call `appendChild(null)` otherwise, and that error path is not modelled.
- Engine.Render: the fibers of an unfinished earlier render are dropped from the arena. In the source they become unreachable garbage, and their host nodes stay created but unmounted.
- A container that is neither `null` nor a node of the host tree is not modelled. `render` requires `ContainerOk`. With a `null` container the root's unit creates a detached node named "undefined", as `document.createElement(undefined)` would.
- Engine.Run: `Run` is a ghost definition of the units of work. The executable loop is `Scheduler.PerformSlice`, proved equal to it.
- Traversal.RunWalksTodo: the budget must be at least the number of elements left to visit. With less, the run stops early, and only `Engine.Run`'s prefix facts apply.

=== FILE: commit.dfy ===
/**
 * Commit: the walk of `commitRoot` / `commitWork` over a finished fiber tree
 * appends the host nodes in the element tree's depth-first pre-order, and never
 * appends the root container itself.
 */
module Commit {
  import opened Wrappers
  import opened Elements
  import opened Host
  import opened Fibers
  import opened Links
  import opened Planning
  import opened Engine
  import opened Traversal

  /** Every fiber's child chain mirrors its child elements. */
  ghost predicate Complete(a: Arena)
    requires Valid(a)
  {
    forall j :: 0 <= j < |a| ==> Views(a, Chain(a, j)) == a[j].children
  }

  /** Once no unit of work is left, every fiber is processed: it has a host node
      and its child chain mirrors its child elements. */
  lemma FinishedIsComplete(eng: Engine)
    requires Inv(eng) && eng.nextUnit.None?
    ensures Complete(eng.fibers)
    ensures forall j :: 0 <= j < |eng.fibers| ==> eng.fibers[j].dom.Some?
  {
    assert PendingOf(eng) == [];
    forall j | 0 <= j < |eng.fibers|
      ensures eng.fibers[j].dom.Some?
      ensures Views(eng.fibers, Chain(eng.fibers, j)) == eng.fibers[j].children
    {
      assert j !in PendingOf(eng);
      assert Processed(eng.fibers, j);
    }
  }

  /** The commit walk from a fiber lists, in pre-order, the subtrees of that
      fiber and of its later siblings. */
  lemma {:induction false} CommitOrderIsPreOrder(a: Arena, x: Option<nat>)
    requires Valid(a) && Complete(a) && (x.Some? ==> x.value < |a|)
    ensures Views(a, CommitOrder(a, x)) == PreOrderAll(Views(a, ChainFrom(a, x)))
    decreases if x.Some? then |a| - x.value else 0
  {
    match x
    case None =>
    case Some(c) =>
      assert LinksOk(a, c);
      var first := a[c].firstChild;
      var next := a[c].nextSibling;
      CommitOrderIsPreOrder(a, first);
      CommitOrderIsPreOrder(a, next);
      assert Views(a, CommitOrder(a, first)) == PreOrderAll(a[c].children) by {
        assert Chain(a, c) == ChainFrom(a, first);
      }
      assert CommitOrder(a, x) == [c] + CommitOrder(a, first) + CommitOrder(a, next);
      assert ChainFrom(a, x) == [c] + ChainFrom(a, next);
      CommitOrderStep(a, c, CommitOrder(a, first), CommitOrder(a, next), ChainFrom(a, next));
  }

  /** The inductive step of `CommitOrderIsPreOrder`: fiber `c`, then the walk
      `xs` below it, then the walk `ys` of its later siblings `zs`. */
  lemma CommitOrderStep(a: Arena, c: nat, xs: seq<nat>, ys: seq<nat>, zs: seq<nat>)
    requires c < |a|
    requires forall k :: 0 <= k < |xs| ==> xs[k] < |a|
    requires forall k :: 0 <= k < |ys| ==> ys[k] < |a|
    requires forall k :: 0 <= k < |zs| ==> zs[k] < |a|
    requires Views(a, xs) == PreOrderAll(a[c].children)
    requires Views(a, ys) == PreOrderAll(Views(a, zs))
    ensures Views(a, [c] + xs + ys) == PreOrderAll(Views(a, [c] + zs))
  {
    var v := View(a[c]);
    var rest := Views(a, zs);
    var p := PreOrderAll(v.children);
    var q := PreOrderAll(rest);
    assert Views(a, [c] + zs) == [v] + rest by {
      ViewsAppend(a, [c], zs);
    }
    assert PreOrderAll([v] + rest) == [v] + (p + q) by {
      PreOrderVisit(v, rest);
      PreOrderAllAppend(v.children, rest);
    }
    CommitStepViews(a, c, xs, ys);
    assert [v] + p + q == [v] + (p + q);
  }

  lemma CommitStepViews(a: Arena, c: nat, xs: seq<nat>, ys: seq<nat>)
    requires c < |a| && forall k :: 0 <= k < |xs| ==> xs[k] < |a|
    requires forall k :: 0 <= k < |ys| ==> ys[k] < |a|
    ensures Views(a, [c] + xs + ys) == [View(a[c])] + Views(a, xs) + Views(a, ys)
  {
    ViewsAppend(a, [c] + xs, ys);
    ViewsAppend(a, [c], xs);
  }

  /** Along `r`, every fiber's first child and next sibling come later than the
      fiber itself. */
  ghost predicate LinksForward(a: Arena, r: seq<nat>)
    requires forall k :: 0 <= k < |r| ==> r[k] < |a|
  {
    forall k :: 0 <= k < |r| ==>
      && (a[r[k]].firstChild.Some? ==> a[r[k]].firstChild.value in r[k + 1..])
      && (a[r[k]].nextSibling.Some? ==> a[r[k]].nextSibling.value in r[k + 1..])
  }

  /** The commit walk reaches a fiber's first child and its next sibling only
      after the fiber: parents are appended before their children, and each
      child chain in link order. */
  lemma {:induction false} CommitOrderLinksForward(a: Arena, x: Option<nat>)
    requires Valid(a) && (x.Some? ==> x.value < |a|)
    ensures LinksForward(a, CommitOrder(a, x))
    decreases if x.Some? then |a| - x.value else 0
  {
    match x
    case None =>
    case Some(c) =>
      assert LinksOk(a, c);
      var first := a[c].firstChild;
      var next := a[c].nextSibling;
      CommitOrderLinksForward(a, first);
      CommitOrderLinksForward(a, next);
      assert first.Some? ==> CommitOrder(a, first)[0] == first.value;
      assert next.Some? ==> CommitOrder(a, next)[0] == next.value;
      assert CommitOrder(a, x) == [c] + CommitOrder(a, first) + CommitOrder(a, next);
      LinksForwardCons(a, c, CommitOrder(a, first), CommitOrder(a, next));
  }

  /** The inductive step of `CommitOrderLinksForward`. */
  lemma LinksForwardCons(a: Arena, c: nat, xs: seq<nat>, ys: seq<nat>)
    requires c < |a|
    requires forall k :: 0 <= k < |xs| ==> xs[k] < |a|
    requires forall k :: 0 <= k < |ys| ==> ys[k] < |a|
    requires LinksForward(a, xs) && LinksForward(a, ys)
    requires a[c].firstChild.Some? ==> xs != [] && xs[0] == a[c].firstChild.value
    requires a[c].nextSibling.Some? ==> ys != [] && ys[0] == a[c].nextSibling.value
    ensures LinksForward(a, [c] + xs + ys)
  {
    var r := [c] + xs + ys;
    forall k | 0 <= k < |r|
      ensures a[r[k]].firstChild.Some? ==> a[r[k]].firstChild.value in r[k + 1..]
      ensures a[r[k]].nextSibling.Some? ==> a[r[k]].nextSibling.value in r[k + 1..]
    {
      if k == 0 {
        assert r[1..] == xs + ys;
      } else if k <= |xs| {
        assert r[k] == xs[k - 1];
        assert r[k + 1..] == xs[k..] + ys;
      } else {
        assert r[k] == ys[k - 1 - |xs|];
        assert r[k + 1..] == ys[k - |xs|..];
      }
    }
  }

  /** The ancestor of fiber `y` at depth `d` (`y` itself when it is that deep). */
  ghost function Anc(a: Arena, y: nat, d: nat): (r: nat)
    requires Valid(a) && y < |a| && d <= Depth(a, y)
    ensures r < |a| && Depth(a, r) == d
    decreases y
  {
    assert LinksOk(a, y);
    if Depth(a, y) == d then y else Anc(a, a[y].parent.value, d)
  }

  /** One level down the ancestors of `y`, the parent link leads one level up. */
  lemma {:induction false} AncParent(a: Arena, y: nat, d: nat)
    requires Valid(a) && y < |a| && d < Depth(a, y)
    ensures a[Anc(a, y, d + 1)].parent == Some(Anc(a, y, d))
    decreases y
  {
    assert LinksOk(a, y);
    var p := a[y].parent.value;
    if Depth(a, y) > d + 1 {
      AncParent(a, p, d);
    }
  }

  /** The fibers of a sibling chain share the parent and depth of its head and
      come no earlier in the arena. */
  lemma {:induction false} ChainFromSiblings(a: Arena, x: Option<nat>)
    requires Valid(a) && (x.Some? ==> x.value < |a|)
    ensures x.Some? ==> forall w :: w in ChainFrom(a, x) ==>
      x.value <= w && a[w].parent == a[x.value].parent && Depth(a, w) == Depth(a, x.value)
    decreases if x.Some? then |a| - x.value else 0
  {
    if x.Some? {
      var c := x.value;
      assert LinksOk(a, c);
      var next := a[c].nextSibling;
      ChainFromSiblings(a, next);
      if next.Some? {
        DepthSibling(a, c);
      }
      assert ChainFrom(a, x) == [c] + ChainFrom(a, next);
    }
  }

  /** Every fiber of the commit walk below `c` has `c` as its ancestor at
      `c`'s depth. */
  lemma BelowHasAncestor(a: Arena, c: nat, y: nat)
    requires Valid(a) && c < |a| && LinksOk(a, c) && a[c].firstChild.Some?
    requires y in CommitOrder(a, a[c].firstChild)
    requires Depth(a, a[c].firstChild.value) <= Depth(a, y)
    requires Anc(a, y, Depth(a, a[c].firstChild.value)) in ChainFrom(a, a[c].firstChild)
    ensures Depth(a, c) < Depth(a, y) && Anc(a, y, Depth(a, c)) == c
  {
    var f := a[c].firstChild.value;
    assert LinksOk(a, f);
    assert Depth(a, f) == Depth(a, c) + 1;
    ChainFromSiblings(a, a[c].firstChild);
    AncParent(a, y, Depth(a, c));
  }

  /** The commit walk from `x` stays in the subtrees of `x` and its later
      siblings: each fiber it reaches descends from one of them. */
  lemma {:induction false} CommitOrderUnder(a: Arena, x: Option<nat>)
    requires Valid(a) && (x.Some? ==> x.value < |a|)
    ensures x.Some? ==> forall y :: y in CommitOrder(a, x) ==>
      Depth(a, x.value) <= Depth(a, y) && Anc(a, y, Depth(a, x.value)) in ChainFrom(a, x)
    decreases if x.Some? then |a| - x.value else 0
  {
    if x.Some? {
      var c := x.value;
      assert LinksOk(a, c);
      var first := a[c].firstChild;
      var next := a[c].nextSibling;
      CommitOrderUnder(a, first);
      CommitOrderUnder(a, next);
      var d := Depth(a, c);
      assert ChainFrom(a, x) == [c] + ChainFrom(a, next);
      assert CommitOrder(a, x) == [c] + CommitOrder(a, first) + CommitOrder(a, next);
      forall y | y in CommitOrder(a, x)
        ensures d <= Depth(a, y) && Anc(a, y, d) in ChainFrom(a, x)
      {
        if y == c {
        } else if y in CommitOrder(a, first) {
          BelowHasAncestor(a, c, y);
        } else {
          assert y in CommitOrder(a, next);
          DepthSibling(a, c);
        }
      }
    }
  }

  /** The commit walk reaches no fiber twice. */
  lemma {:induction false} CommitOrderDistinct(a: Arena, x: Option<nat>)
    requires Valid(a) && (x.Some? ==> x.value < |a|)
    ensures Distinct(CommitOrder(a, x))
    decreases if x.Some? then |a| - x.value else 0
  {
    if x.Some? {
      var c := x.value;
      assert LinksOk(a, c);
      var first := a[c].firstChild;
      var next := a[c].nextSibling;
      CommitOrderDistinct(a, first);
      CommitOrderDistinct(a, next);
      var xs := CommitOrder(a, first);
      var ys := CommitOrder(a, next);
      assert CommitOrder(a, x) == [c] + xs + ys;
      assert c !in xs && c !in ys;
      if first.Some? && next.Some? {
        CommitOrderUnder(a, first);
        CommitOrderUnder(a, next);
        ChainFromSiblings(a, next);
        DepthSibling(a, c);
        forall y | y in xs ensures y !in ys {
          BelowHasAncestor(a, c, y);
        }
      }
      DistinctJoin(c, xs, ys);
    }
  }

  lemma DistinctJoin(c: nat, xs: seq<nat>, ys: seq<nat>)
    requires Distinct(xs) && Distinct(ys) && c !in xs && c !in ys
    requires forall y :: y in xs ==> y !in ys
    ensures Distinct([c] + xs + ys)
  {
    var r := [c] + xs + ys;
    forall p, q | 0 <= p < q < |r| ensures r[p] != r[q] {
      if q <= |xs| {
        assert r[q] == xs[q - 1] && xs[q - 1] in xs;
        if p > 0 { assert r[p] == xs[p - 1]; }
      } else {
        assert r[q] == ys[q - 1 - |xs|] && ys[q - 1 - |xs|] in ys;
        if p == 0 {
        } else if p <= |xs| {
          assert r[p] == xs[p - 1] && xs[p - 1] in xs;
        } else {
          assert r[p] == ys[p - 1 - |xs|];
        }
      }
    }
  }

  /** The set of the entries of `xs`. */
  ghost function Members(xs: seq<nat>): (r: set<nat>)
    ensures forall x :: x in r <==> x in xs
  {
    if xs == [] then {} else {xs[0]} + Members(xs[1..])
  }

  /** A sequence with no repeats has as many distinct members as entries. */
  lemma {:induction false} DistinctCard(xs: seq<nat>)
    requires Distinct(xs)
    ensures |Members(xs)| == |xs|
  {
    if xs != [] {
      var tail := xs[1..];
      assert Distinct(tail) by {
        forall p, q | 0 <= p < q < |tail| ensures tail[p] != tail[q] {
          assert tail[p] == xs[p + 1] && tail[q] == xs[q + 1];
        }
      }
      DistinctCard(tail);
      assert xs[0] !in Members(tail) by {
        forall q | 0 <= q < |tail| ensures tail[q] != xs[0] {
          assert tail[q] == xs[q + 1];
        }
      }
    }
  }

  /** A subset as large as its superset is all of it. */
  lemma FullSubset(s: set<nat>, all: set<nat>)
    requires s <= all && |s| == |all|
    ensures all <= s
  {
    assert all * s == s;
    assert |all - s| == |all| - |all * s|;
  }

  /** A repeat-free sequence of `hi - lo` indices, all from `lo` up to `hi`,
      holds every one of them. */
  lemma Pigeonhole(xs: seq<nat>, lo: nat, hi: nat)
    requires lo <= hi && |xs| == hi - lo && Distinct(xs)
    requires forall k :: 0 <= k < |xs| ==> lo <= xs[k] < hi
    ensures forall j :: lo <= j < hi ==> j in xs
  {
    var r := Range(lo, hi);
    DistinctCard(xs);
    DistinctCard(r);
    forall x | x in Members(xs) ensures x in Members(r) {
      assert r[x - lo] == x;
    }
    FullSubset(Members(xs), Members(r));
    forall j | lo <= j < hi ensures j in xs {
      assert r[j - lo] == j;
      assert j in Members(r);
    }
  }

  /** The root's child chain after a complete run is the rendered element alone. */
  lemma RootChain(eng: Engine, element: Element, container: Option<HostId>)
    requires ContainerOk(eng.host, container)
    ensures var fin := Run(Render(eng, element, container), Size(element) + 1).0;
      && fin.wipRoot == Some(0) && Valid(fin.fibers) && Complete(fin.fibers)
      && (forall j :: 0 <= j < |fin.fibers| ==> fin.fibers[j].dom.Some?)
      && Views(fin.fibers, Chain(fin.fibers, 0)) == [element]
  {
    var r := Render(eng, element, container);
    var fin := Run(r, Size(element) + 1).0;
    RenderVisitsEachElementOnce(eng, element, container);
    FinishedIsComplete(fin);
    assert View(fin.fibers[0]) == View(r.fibers[0]);
  }

  /** The commit walk of a finished render lists the rendered element's
      subtree in pre-order and never includes the root fiber. */
  lemma RootCommitOrderIsPreOrder(eng: Engine, element: Element, container: Option<HostId>)
    requires ContainerOk(eng.host, container)
    ensures var fin := Run(Render(eng, element, container), Size(element) + 1).0;
      && fin.wipRoot == Some(0)
      && Views(fin.fibers, RootCommitOrder(fin)) == PreOrder(element)
      && 0 !in RootCommitOrder(fin)
  {
    var fin := Run(Render(eng, element, container), Size(element) + 1).0;
    var a := fin.fibers;
    RootChain(eng, element, container);
    assert LinksOk(a, 0);
    CommitOrderIsPreOrder(a, a[0].firstChild);
    assert PreOrderAll([element]) == PreOrder(element) + PreOrderAll([]);
  }

  lemma TailOfCons<T>(x: seq<T>, y: seq<T>, u: seq<T>, w: seq<T>)
    requires |x| == |u| && x + y == u + w
    ensures y == w
  {
    assert y == (x + y)[|x|..];
  }

  /** The units of work after the root's visited the rendered element's subtree
      in pre-order. */
  lemma TraceAfterRoot(eng: Engine, element: Element, container: Option<HostId>)
    requires ContainerOk(eng.host, container)
    ensures var run := Run(Render(eng, element, container), Size(element) + 1);
      && |run.1| == Size(element) + 1
      && (forall k :: 0 <= k < |run.1| ==> run.1[k] < |run.0.fibers|)
      && Views(run.0.fibers, run.1[1..]) == PreOrder(element)
  {
    var run := Run(Render(eng, element, container), Size(element) + 1);
    var a := run.0.fibers;
    var t := run.1;
    RenderVisitsEachElementOnce(eng, element, container);
    assert t == [t[0]] + t[1..];
    ViewsAppend(a, [t[0]], t[1..]);
    TailOfCons(Views(a, [t[0]]), Views(a, t[1..]), [Element("", map[], [element])], PreOrder(element));
  }

  /** Theorem: after `render` and a complete run of units of work, `commitRoot`
      appends exactly one host node per element, in the element tree's
      depth-first pre-order (the order the units of work visited them in), each
      under its parent fiber's host node, never the root container itself, and
      clears the root. */
  lemma RenderThenCommit(eng: Engine, element: Element, container: Option<HostId>)
    requires ContainerOk(eng.host, container)
    ensures var run := Run(Render(eng, element, container), Size(element) + 1);
      var fin := run.0;
      && fin.wipRoot == Some(0)
      && (forall j :: 0 <= j < |fin.fibers| ==> fin.fibers[j].dom.Some?)
      && (forall k :: 0 <= k < |run.1| ==> run.1[k] < |fin.fibers|)
      && var order := RootCommitOrder(fin);
      && Views(fin.fibers, order) == PreOrder(element) == Views(fin.fibers, run.1[1..])
      && 0 !in order
      && |Appends(fin.fibers, order)| == |order| == Size(element)
      && CommitRoot(fin).host.log == eng.host.log + Appends(fin.fibers, order)
      && CommitRoot(fin).wipRoot.None?
  {
    var run := Run(Render(eng, element, container), Size(element) + 1);
    var fin := run.0;
    var a := fin.fibers;
    RootChain(eng, element, container);
    RootCommitOrderIsPreOrder(eng, element, container);
    TraceAfterRoot(eng, element, container);
    var order := RootCommitOrder(fin);
    PreOrderLength(element);
    assert |Views(a, order)| == |order|;
    assert Committable(a, order);
    forall k | 0 <= k < |order| ensures a[a[order[k]].parent.value].dom.Some? {
      assert LinksOk(a, order[k]);
    }
  }

  /** A commit walk from the root's first child with one entry per non-root
      fiber reaches each of them exactly once, links first. */
  lemma RootWalkCovers(a: Arena)
    requires Valid(a) && 0 < |a| && LinksOk(a, 0)
    requires |CommitOrder(a, a[0].firstChild)| + 1 == |a|
    ensures var order := CommitOrder(a, a[0].firstChild);
      && Distinct(order)
      && (forall j :: 0 < j < |a| ==> j in order)
      && LinksForward(a, order)
  {
    var order := CommitOrder(a, a[0].firstChild);
    CommitOrderDistinct(a, a[0].firstChild);
    CommitOrderLinksForward(a, a[0].firstChild);
    Pigeonhole(order, 1, |a|);
  }

  /** After a complete run, the commit walk has one entry per non-root fiber. */
  lemma RootCommitOrderLength(eng: Engine, element: Element, container: Option<HostId>)
    requires ContainerOk(eng.host, container)
    ensures var fin := Run(Render(eng, element, container), Size(element) + 1).0;
      fin.wipRoot == Some(0) && |RootCommitOrder(fin)| + 1 == |fin.fibers|
  {
    RenderVisitsEachElementOnce(eng, element, container);
    RenderThenCommit(eng, element, container);
  }

  /** Theorem: after `render` and a complete run of units of work, the commit
      walk reaches every fiber but the root exactly once, each fiber before its
      first child and its next sibling. Since every fiber's child chain mirrors
      its child elements, each host parent receives its children in element
      order. */
  lemma CommitAppendsEachOnceInOrder(eng: Engine, element: Element, container: Option<HostId>)
    requires ContainerOk(eng.host, container)
    ensures var fin := Run(Render(eng, element, container), Size(element) + 1).0;
      && fin.wipRoot == Some(0) && Valid(fin.fibers)
      && var a := fin.fibers;
      && var order := RootCommitOrder(fin);
      && Distinct(order)
      && (forall j :: 0 < j < |a| ==> j in order)
      && LinksForward(a, order)
      && (forall j :: 0 <= j < |a| ==> Views(a, Chain(a, j)) == a[j].children)
  {
    var fin := Run(Render(eng, element, container), Size(element) + 1).0;
    RootChain(eng, element, container);
    RootCommitOrderLength(eng, element, container);
    assert LinksOk(fin.fibers, 0);
    RootWalkCovers(fin.fibers);
  }
}

=== FILE: elements.dfy ===
/**
 * Elements: the immutable description of the UI that the front-end builds
 * with `createElement` / `createTextElement` (src/index.js).
 *
 * A JavaScript element is `{ type, props }` where `props.children` is the
 * ordered list of child elements.  Here the `children` entry is held in its
 * own field and `props` holds every other entry.
 */
module Elements {

  /** The `type` given to text elements (`PRIMITIVE` in the source). */
  const PRIMITIVE: string := "TEXT_ELEMENT"

  /** The reserved prop name of the child list. */
  const CHILDREN: string := "children"

  /** The prop that carries the text of a text element. */
  const NODE_VALUE: string := "nodeValue"

  /** A JavaScript value that is not an object: what a prop may hold, and
      what `createElement` wraps into a text element. */
  datatype Value = Str(s: string) | Num(n: int) | Bool(b: bool) | Undefined

  /** An element: its `type`, its props other than `children`, and its children. */
  datatype Element = Element(kind: string, props: map<string, Value>, children: seq<Element>)

  /** One argument of the `...children` rest parameter of `createElement`:
      an element object, or a primitive that gets wrapped as text. */
  datatype ChildArg = Obj(elem: Element) | Prim(value: Value)

  /** `createTextElement`: a leaf of kind PRIMITIVE whose only prop is `nodeValue`. */
  function CreateTextElement(text: Value): (e: Element)
    ensures e.kind == PRIMITIVE && e.children == []
    ensures e.props.Keys == {NODE_VALUE} && e.props[NODE_VALUE] == text
  {
    Element(PRIMITIVE, map[NODE_VALUE := text], [])
  }

  /** The `children.map(...)` callback: objects pass through, the rest is wrapped. */
  function WrapChild(arg: ChildArg): (child: Element)
  {
    match arg
    case Obj(e) => e
    case Prim(v) => CreateTextElement(v)
  }

  /** `createElement(type, props, ...children)`.  The spread `{...props, children}`
      means a `children` entry in `props` is always overridden by the wrapped list. */
  function CreateElement(kind: string, props: map<string, Value>, args: seq<ChildArg>): (e: Element)
    ensures e.kind == kind
    ensures e.props.Keys == props.Keys - {CHILDREN}
    ensures forall k :: k in e.props ==> e.props[k] == props[k]
    ensures |e.children| == |args|
    ensures forall i :: 0 <= i < |args| && args[i].Obj? ==> e.children[i] == args[i].elem
    ensures forall i :: 0 <= i < |args| && args[i].Prim? ==>
              e.children[i].kind == PRIMITIVE && e.children[i].children == [] &&
              e.children[i].props == map[NODE_VALUE := args[i].value]
  {
    Element(kind, props - {CHILDREN}, seq(|args|, i requires 0 <= i < |args| => WrapChild(args[i])))
  }

  /** The depth-first pre-order listing of a tree: the node, then each child's
      subtree from first to last. */
  function PreOrder(e: Element): (order: seq<Element>)
    decreases e, 1
  {
    [e] + PreOrderAll(e.children)
  }

  /** The pre-order listings of a forest, concatenated in order. */
  function PreOrderAll(es: seq<Element>): (order: seq<Element>)
    decreases es, 0
  {
    if es == [] then [] else PreOrder(es[0]) + PreOrderAll(es[1..])
  }

  /** Listing a concatenated forest lists each part in turn. */
  lemma {:induction false} PreOrderAllAppend(xs: seq<Element>, ys: seq<Element>)
    ensures PreOrderAll(xs + ys) == PreOrderAll(xs) + PreOrderAll(ys)
    decreases |xs|
  {
    if xs == [] {
      assert xs + ys == ys;
    } else {
      assert (xs + ys)[0] == xs[0];
      assert (xs + ys)[1..] == xs[1..] + ys;
      PreOrderAllAppend(xs[1..], ys);
    }
  }

  /** The number of nodes of a tree. */
  function Size(e: Element): (n: nat)
    decreases e, 1
  {
    1 + SizeAll(e.children)
  }

  /** The number of nodes of a forest. */
  function SizeAll(es: seq<Element>): (n: nat)
    decreases es, 0
  {
    if es == [] then 0 else Size(es[0]) + SizeAll(es[1..])
  }

  /** The pre-order listing holds each node of the tree exactly once: its length
      is the node count. */
  lemma {:induction false} PreOrderLength(e: Element)
    ensures |PreOrder(e)| == Size(e)
    decreases e, 1
  {
    PreOrderAllLength(e.children);
  }

  lemma {:induction false} PreOrderAllLength(es: seq<Element>)
    ensures |PreOrderAll(es)| == SizeAll(es)
    decreases es, 0
  {
    if es != [] {
      PreOrderLength(es[0]);
      PreOrderAllLength(es[1..]);
    }
  }
}

=== FILE: engine.dfy ===
/**
 * Engine: the module-level state of src/index.js (`nextUnitOfWork`, `wipRoot`,
 * the fibers and the host tree) made explicit, with `render`, a run of units of
 * work, and the commit walk (`commitRoot` / `commitWork`).
 */
module Engine {
  import opened Wrappers
  import opened Elements
  import opened Host
  import opened Fibers

  /** `nextUnitOfWork` and `wipRoot` are indices into `fibers`; `None` is `null`. */
  datatype Engine = Engine(fibers: Arena, host: HostTree, nextUnit: Option<nat>, wipRoot: Option<nat>)

  /** The arena is well formed and both pointers land inside it. */
  ghost predicate Ready(eng: Engine)
  {
    && Valid(eng.fibers)
    && (eng.nextUnit.Some? ==> eng.nextUnit.value < |eng.fibers|)
    && (eng.wipRoot.Some? ==> eng.wipRoot.value < |eng.fibers|)
  }

  /** The mount point `render` receives: `null` (`None`), or a node that is
      already in the host tree. */
  predicate ContainerOk(host: HostTree, container: Option<HostId>)
  {
    container.Some? ==> container.value < |host.nodes|
  }

  /** The root fiber `render` seeds: no kind, the container as host node, and
      the rendered element as its only child. */
  function RootFiber(element: Element, container: Option<HostId>): (root: Fiber)
  {
    Fiber(None, map[], [element], container, None, None, None)
  }

  /** `render(element, container)`: a fresh work-in-progress root that is also the
      next unit of work. Fibers of an unfinished earlier render become unreachable
      and are dropped; the host tree is untouched. */
  function Render(eng: Engine, element: Element, container: Option<HostId>): (r: Engine)
    requires ContainerOk(eng.host, container)
    ensures Ready(r) && r.host == eng.host
    ensures r.nextUnit == Some(0) && r.wipRoot == Some(0) && |r.fibers| == 1
    ensures r.fibers[0].dom == container && r.fibers[0].children == [element]
    ensures r.fibers[0].kind.None? && r.fibers[0].props == map[]
    ensures r.fibers[0].parent.None? && r.fibers[0].firstChild.None? && r.fibers[0].nextSibling.None?
  {
    Engine([RootFiber(element, container)], eng.host, Some(0), Some(0))
  }

  /** One iteration of the `workLoop` loop body: perform the next unit of work
      and make the unit it plans the new next unit. */
  function Step(eng: Engine): (r: Engine)
    requires Ready(eng) && eng.nextUnit.Some?
    ensures Ready(r) && r.wipRoot == eng.wipRoot
    ensures |r.fibers| == |eng.fibers| + |eng.fibers[eng.nextUnit.value].children|
    ensures r.host.log == eng.host.log
  {
    var p := UnitOfWork(eng.fibers, eng.host, eng.nextUnit.value);
    Engine(p.fibers, p.host, p.next, eng.wipRoot)
  }

  /** A unit of work only adds fibers: every existing fiber keeps its element. */
  lemma StepKeepsViews(eng: Engine)
    requires Ready(eng) && eng.nextUnit.Some?
    ensures forall j :: 0 <= j < |eng.fibers| ==> View(Step(eng).fibers[j]) == View(eng.fibers[j])
  {
  }

  /** Up to `units` units of work, stopping early when no next unit is left: the
      resulting state and the fibers processed, in order. */
  ghost function Run(eng: Engine, units: nat): (r: (Engine, seq<nat>))
    requires Ready(eng)
    ensures Ready(r.0) && r.0.wipRoot == eng.wipRoot
    ensures |r.1| <= units && (|r.1| < units ==> r.0.nextUnit.None?)
    ensures eng.nextUnit.None? ==> r == (eng, [])
    ensures units > 0 && eng.nextUnit.Some? ==> r.1 != [] && r.1[0] == eng.nextUnit.value
    ensures |eng.fibers| <= |r.0.fibers|
    ensures r.0.host.log == eng.host.log
    decreases units, 1
  {
    if units == 0 || eng.nextUnit.None? then (eng, [])
    else RunFrom(eng, units)
  }

  /** A run that starts with the unit `eng.nextUnit`. */
  ghost function RunFrom(eng: Engine, units: nat): (r: (Engine, seq<nat>))
    requires Ready(eng) && units > 0 && eng.nextUnit.Some?
    decreases units, 0
  {
    var (fin, trace) := Run(Step(eng), units - 1);
    (fin, [eng.nextUnit.value] + trace)
  }

  /** A run of `n + 1` units from a state with work is that unit followed by a
      run of `n` units. */
  lemma RunCons(eng: Engine, n: nat)
    requires Ready(eng) && eng.nextUnit.Some?
    ensures Run(eng, n + 1).0 == Run(Step(eng), n).0
    ensures Run(eng, n + 1).1 == [eng.nextUnit.value] + Run(Step(eng), n).1
  {
  }

  /** A run only adds fibers: every fiber it started with keeps its element. */
  lemma {:induction false} RunKeepsViews(eng: Engine, units: nat)
    requires Ready(eng)
    ensures forall j :: 0 <= j < |eng.fibers| ==> View(Run(eng, units).0.fibers[j]) == View(eng.fibers[j])
    decreases units
  {
    if units > 0 && eng.nextUnit.Some? {
      StepKeepsViews(eng);
      RunKeepsViews(Step(eng), units - 1);
    }
  }

  /** The order of `commitWork(fiber)`: the fiber, then its first child's
      commit walk, then its next sibling's. */
  function CommitOrder(a: Arena, x: Option<nat>): (r: seq<nat>)
    requires Valid(a) && (x.Some? ==> x.value < |a|)
    ensures x.None? ==> r == []
    ensures x.Some? ==> forall k :: 0 <= k < |r| ==> x.value <= r[k] < |a|
    ensures x.Some? && a[x.value].parent.Some? ==> forall k :: 0 <= k < |r| ==> a[r[k]].parent.Some?
    decreases if x.Some? then |a| - x.value else 0
  {
    match x
    case None => []
    case Some(c) =>
      assert LinksOk(a, c);
      [c] + CommitOrder(a, a[c].firstChild) + CommitOrder(a, a[c].nextSibling)
  }

  /** Every fiber of `order` has a parent inside the arena and a host node. */
  ghost predicate Committable(a: Arena, order: seq<nat>)
  {
    forall k :: 0 <= k < |order| ==>
      order[k] < |a| && a[order[k]].parent.Some? && a[order[k]].parent.value < |a| && a[order[k]].dom.Some?
  }

  /** The appends `commitWork` performs along `order`: each fiber's host node goes
      under its parent's host node, skipped when the parent has none. */
  function Appends(a: Arena, order: seq<nat>): (log: seq<Append>)
    requires Committable(a, order)
    ensures (forall k :: 0 <= k < |order| ==> a[a[order[k]].parent.value].dom.Some?) ==>
      && |log| == |order|
      && forall k :: 0 <= k < |order| ==>
           log[k] == Append(a[a[order[k]].parent.value].dom.value, a[order[k]].dom.value)
  {
    if order == [] then []
    else
      var f := a[order[0]];
      var domParent := a[f.parent.value].dom;
      (if domParent.Some? then [Append(domParent.value, f.dom.value)] else [])
        + Appends(a, order[1..])
  }

  /** The fibers `commitRoot` appends, in order: the commit walk from the root's
      first child. */
  function RootCommitOrder(eng: Engine): (order: seq<nat>)
    requires Ready(eng) && eng.wipRoot.Some?
    ensures forall k :: 0 <= k < |order| ==> eng.wipRoot.value < order[k] < |eng.fibers|
    ensures Committable(eng.fibers, order) <==> forall k :: 0 <= k < |order| ==> eng.fibers[order[k]].dom.Some?
  {
    var a := eng.fibers;
    var root := eng.wipRoot.value;
    assert LinksOk(a, root);
    var order := CommitOrder(a, a[root].firstChild);
    forall k | 0 <= k < |order|
      ensures order[k] < |a| && a[order[k]].parent.Some? && a[order[k]].parent.value < |a|
    {
      assert LinksOk(a, order[k]);
    }
    order
  }

  /** `commitRoot`: the commit walk from the root's first child appends every
      fiber's host node, then the root is cleared. */
  function CommitRoot(eng: Engine): (r: Engine)
    requires Ready(eng) && eng.wipRoot.Some?
    requires forall j :: 0 <= j < |eng.fibers| ==> eng.fibers[j].dom.Some?
    ensures r.wipRoot.None? && r.fibers == eng.fibers && r.nextUnit == eng.nextUnit
    ensures r.host.nodes == eng.host.nodes
    ensures r.host.log == eng.host.log + Appends(eng.fibers, RootCommitOrder(eng))
  {
    var order := RootCommitOrder(eng);
    Engine(eng.fibers, HostTree(eng.host.nodes, eng.host.log + Appends(eng.fibers, order)), eng.nextUnit, None)
  }
}

=== FILE: fibers.dfy ===
/**
 * Fibers: the work tree of `src/index.js` and its unit of work
 * (`performAndPlanUnitOfWork`).
 *
 * The fibers live in an arena (`Arena`); the source's object references
 * `parent`, `firstChild` and `nextSibling` are indices into it.  A unit of work
 * appends the fibers it creates at the end of the arena, so every link a fiber
 * gains points forward and every `parent` link points backward.
 */
module Fibers {
  import opened Wrappers
  import opened Elements
  import opened Host

  /** A fiber: `type` and `props` copied from its element (`children` held apart),
      its host node, and its three links. The root fiber made by `render` has no kind. */
  datatype Fiber = Fiber(
    kind: Option<string>,
    props: map<string, Value>,
    children: seq<Element>,
    dom: Option<HostId>,
    parent: Option<nat>,
    firstChild: Option<nat>,
    nextSibling: Option<nat>)

  type Arena = seq<Fiber>

  /** The links of fiber `j` are well formed: its parent comes before it, and its
      first child and next sibling come after it and agree on who their parent is. */
  predicate LinksOk(a: Arena, j: nat)
    requires j < |a|
  {
    var f := a[j];
    && (f.parent.Some? ==> f.parent.value < j)
    && (f.firstChild.Some? ==> j < f.firstChild.value < |a| && a[f.firstChild.value].parent == Some(j))
    && (f.nextSibling.Some? ==> j < f.nextSibling.value < |a| && a[f.nextSibling.value].parent == f.parent)
  }

  /** The "at most one parent, at most one next sibling, traversed depth first"
      invariant the source relies on instead of a visited set. */
  ghost predicate Valid(a: Arena)
  {
    forall j :: 0 <= j < |a| ==> LinksOk(a, j)
  }

  /** The element a fiber mirrors (the root's missing kind reads as ""). */
  function View(f: Fiber): (e: Element)
  {
    Element(f.kind.GetOr(""), f.props, f.children)
  }

  /** The fiber the unit of work creates for one child element. */
  function ChildFiber(parent: nat, e: Element, sibling: Option<nat>): (f: Fiber)
  {
    Fiber(Some(e.kind), e.props, e.children, None, Some(parent), None, sibling)
  }

  /** The fibers created for `elems`, to be stored from index `base` on: each links
      to the next one, and the last has no next sibling. */
  function ChildFibers(parent: nat, base: nat, elems: seq<Element>): (cs: seq<Fiber>)
    ensures |cs| == |elems|
    ensures forall k :: 0 <= k < |elems| ==>
              && cs[k].kind == Some(elems[k].kind) && cs[k].props == elems[k].props
              && cs[k].children == elems[k].children && cs[k].dom == None
              && cs[k].parent == Some(parent) && cs[k].firstChild == None
              && cs[k].nextSibling == (if k + 1 < |elems| then Some(base + k + 1) else None)
  {
    seq(|elems|, k requires 0 <= k < |elems| =>
      ChildFiber(parent, elems[k], if k + 1 < |elems| then Some(base + k + 1) else None))
  }

  /** The state a unit of work reads and writes, and the next unit it plans. */
  datatype Planned = Planned(fibers: Arena, host: HostTree, next: Option<nat>)

  /** The walk up of `performAndPlanUnitOfWork`: the next sibling of `j` itself
      or of its nearest ancestor that has one; `None` when the root is reached
      first. */
  function WalkUp(a: Arena, j: nat): (r: Option<nat>)
    requires Valid(a) && j < |a|
    ensures r.Some? ==> r.value < |a|
    ensures a[j].nextSibling.Some? ==> r == a[j].nextSibling
    ensures a[j].nextSibling.None? && a[j].parent.None? ==> r.None?
    decreases j
  {
    assert LinksOk(a, j);
    match a[j].nextSibling
    case Some(s) => Some(s)
    case None =>
      match a[j].parent
      case None => None
      case Some(p) => WalkUp(a, p)
  }

  /** How `performAndPlanUnitOfWork` picks the next unit: the first child if
      there is one, else the walk up. */
  function NextUnit(a: Arena, j: nat): (r: Option<nat>)
    requires Valid(a) && j < |a|
    ensures a[j].firstChild.Some? ==> r == a[j].firstChild
    ensures r.Some? ==> r.value < |a|
  {
    assert LinksOk(a, j);
    if a[j].firstChild.Some? then a[j].firstChild else WalkUp(a, j)
  }

  /** The first step of a unit of work: a host node is created only when the
      fiber has none. */
  function EnsureDom(f: Fiber, host: HostTree): (r: (Fiber, HostTree))
    ensures f.dom.Some? ==> r == (f, host)
    ensures f.dom.None? ==>
              && |r.1.nodes| == |host.nodes| + 1 && r.1.nodes[..|host.nodes|] == host.nodes
              && r.1.log == host.log && r.0.dom == Some(|host.nodes|)
              && r.1.nodes[|host.nodes|] == NewNode(f.kind, f.props)
    ensures r.0 == f.(dom := r.0.dom)
  {
    if f.dom.Some? then (f, host)
    else
      var (host', id) := CreateDom(host, f.kind, f.props);
      (f.(dom := Some(id)), host')
  }

  /** `performAndPlanUnitOfWork(fibers[i])`: ensure the fiber's host node, create
      one fiber per child element, appended at the end of the arena and chained
      `firstChild -> nextSibling -> ...` in element order, then plan the next unit. */
  function UnitOfWork(a: Arena, host: HostTree, i: nat): (r: Planned)
    requires Valid(a) && i < |a|
    ensures Valid(r.fibers)
    ensures |r.fibers| == |a| + |a[i].children|
    ensures r.fibers[|a|..] == ChildFibers(i, |a|, a[i].children)
    ensures forall j :: 0 <= j < |a| && j != i ==> r.fibers[j] == a[j]
    ensures r.fibers[i] == a[i].(dom := r.fibers[i].dom, firstChild := r.fibers[i].firstChild)
    ensures r.fibers[i].firstChild == if a[i].children == [] then a[i].firstChild else Some(|a|)
    ensures a[i].dom.Some? ==> r.fibers[i].dom == a[i].dom && r.host == host
    ensures a[i].dom.None? ==> r.fibers[i].dom == Some(|host.nodes|) && |r.host.nodes| == |host.nodes| + 1
    ensures a[i].dom.None? ==> r.host.nodes[|host.nodes|] == NewNode(a[i].kind, a[i].props)
    ensures r.host.log == host.log && r.host.nodes[..|host.nodes|] == host.nodes
    ensures r.next == NextUnit(r.fibers, i)
  {
    var (f, host') := EnsureDom(a[i], host);
    var elems := f.children;
    var f' := f.(firstChild := if elems == [] then f.firstChild else Some(|a|));
    var a' := a[i := f'] + ChildFibers(i, |a|, elems);
    AddChildrenValid(a, i, f', elems);
    Planned(a', host', NextUnit(a', i))
  }

  /** `performAndPlanUnitOfWork` as the source writes it: one loop that creates a
      child fiber per element and links it from its predecessor (or from the
      fiber itself for the first), then a loop that climbs `parent` links until a
      `nextSibling` turns up. It computes exactly `UnitOfWork`. */
  method PerformAndPlanUnitOfWork(a: Arena, host: HostTree, i: nat) returns (a': Arena, host': HostTree, next: Option<nat>)
    requires Valid(a) && i < |a|
    ensures Planned(a', host', next) == UnitOfWork(a, host, i)
  {
    var fiber := a[i];
    host' := host;
    if fiber.dom.None? {
      var created := CreateDom(host, fiber.kind, fiber.props);
      host' := created.0;
      fiber := fiber.(dom := Some(created.1));
    }
    var childFibers;
    fiber, childFibers := LinkChildren(fiber, i, |a|);
    a' := a[i := fiber] + childFibers;
    AddChildrenValid(a, i, fiber, fiber.children);
    next := PlanNext(a', i);
  }

  /** The chaining loop of `performAndPlanUnitOfWork`: one new fiber per child
      element of `fiber` (the fiber at `i`), to be stored from index `base` on;
      the first is linked as `fiber`'s first child and each later one as its
      predecessor's next sibling. */
  method LinkChildren(fiber: Fiber, i: nat, base: nat) returns (f': Fiber, childFibers: seq<Fiber>)
    ensures childFibers == ChildFibers(i, base, fiber.children)
    ensures f' == fiber.(firstChild := if fiber.children == [] then fiber.firstChild else Some(base))
  {
    var elements := fiber.children;
    f' := fiber;
    childFibers := [];
    var index := 0;
    while index < |elements|
      invariant index <= |elements|
      invariant childFibers == ChildFibers(i, base, elements[..index])
      invariant f' == fiber.(firstChild := if index == 0 then fiber.firstChild else Some(base))
    {
      var element := elements[index];
      var childFiber := ChildFiber(i, element, None);
      if index == 0 {
        f' := f'.(firstChild := Some(base));
      } else {
        childFibers := childFibers[index - 1 := childFibers[index - 1].(nextSibling := Some(base + index))];
      }
      childFibers := childFibers + [childFiber];
      index := index + 1;
    }
    assert elements[..index] == elements;
  }

  /** The planning step of `performAndPlanUnitOfWork`: the first child if there
      is one; otherwise climb `parent` links from fiber `i` until a fiber with a
      next sibling turns up. */
  method PlanNext(a: Arena, i: nat) returns (next: Option<nat>)
    requires Valid(a) && i < |a|
    ensures next == NextUnit(a, i)
  {
    if a[i].firstChild.Some? {
      return a[i].firstChild;
    }
    var nextFiber: Option<nat> := Some(i);
    while nextFiber.Some?
      invariant nextFiber.Some? ==> nextFiber.value < |a| && WalkUp(a, nextFiber.value) == WalkUp(a, i)
      invariant nextFiber.None? ==> WalkUp(a, i) == None
      decreases if nextFiber.Some? then nextFiber.value + 1 else 0
    {
      assert LinksOk(a, nextFiber.value);
      if a[nextFiber.value].nextSibling.Some? {
        return a[nextFiber.value].nextSibling;
      }
      nextFiber := a[nextFiber.value].parent;
    }
    next := None;
  }

  /** Storing fiber `i` with new first-child link and appending its child fibers
      keeps the arena well formed. */
  lemma AddChildrenValid(a: Arena, i: nat, f': Fiber, elems: seq<Element>)
    requires Valid(a) && i < |a|
    requires f'.parent == a[i].parent && f'.nextSibling == a[i].nextSibling
    requires f'.firstChild == if elems == [] then a[i].firstChild else Some(|a|)
    ensures Valid(a[i := f'] + ChildFibers(i, |a|, elems))
  {
    var a' := a[i := f'] + ChildFibers(i, |a|, elems);
    forall j | 0 <= j < |a'|
      ensures LinksOk(a', j)
    {
      if j < |a| {
        assert LinksOk(a, j);
        if a[j].firstChild.Some? {
          var c := a[j].firstChild.value;
          assert a'[c].parent == a[c].parent;
        }
        if a[j].nextSibling.Some? {
          var s := a[j].nextSibling.value;
          assert a'[s].parent == a[s].parent;
        }
      }
    }
  }
}

=== FILE: host.dfy ===
/**
 * Host: the output tree the engine writes into (the browser DOM in the source).
 * The nodes live in an arena indexed by `HostId`; the only mutation the engine
 * performs, `appendChild`, is recorded in an append log.
 */
module Host {
  import opened Wrappers
  import opened Elements

  type HostId = nat

  /** A text node, or an element node with its tag name. */
  datatype HostKind = TextNode | Tag(name: string)

  /** A host node and the properties assigned to it by `createDom`. */
  datatype HostNode = HostNode(kind: HostKind, attrs: map<string, Value>)

  /** One `parent.appendChild(child)` call. */
  datatype Append = Append(parent: HostId, child: HostId)

  /** Every host node created so far and every append performed so far. */
  datatype HostTree = HostTree(nodes: seq<HostNode>, log: seq<Append>)

  /** The `isProperty` filter of `createDom`: every key but `children`. */
  predicate IsProperty(key: string)
  {
    key != CHILDREN
  }

  /** The properties `createDom` copies onto a new host node. */
  function Properties(props: map<string, Value>): (attrs: map<string, Value>)
    ensures forall k :: k in attrs <==> k in props && k != CHILDREN
    ensures forall k :: k in attrs ==> attrs[k] == props[k]
  {
    map k | k in props && IsProperty(k) :: props[k]
  }

  /** The node `createDom` builds for a fiber of the given kind and props: a text
      node when the kind is PRIMITIVE, otherwise an element node named after the
      kind (JavaScript turns a missing `type` into the tag name "undefined"),
      carrying every property but `children`. */
  function NewNode(kind: Option<string>, props: map<string, Value>): (n: HostNode)
    ensures n.kind.TextNode? <==> kind == Some(PRIMITIVE)
    ensures n.kind.Tag? ==> n.kind.name == kind.GetOr("undefined")
    ensures n.attrs.Keys == props.Keys - {CHILDREN}
    ensures forall k :: k in n.attrs ==> n.attrs[k] == props[k]
  {
    var hk := if kind == Some(PRIMITIVE) then TextNode else Tag(kind.GetOr("undefined"));
    HostNode(hk, Properties(props))
  }

  /** `createDom`: allocates the next host id for `NewNode(kind, props)`. */
  function CreateDom(host: HostTree, kind: Option<string>, props: map<string, Value>): (r: (HostTree, HostId))
    ensures r.1 == |host.nodes| && |r.0.nodes| == |host.nodes| + 1
    ensures r.0.nodes[..|host.nodes|] == host.nodes && r.0.log == host.log
    ensures r.0.nodes[r.1] == NewNode(kind, props)
  {
    (HostTree(host.nodes + [NewNode(kind, props)], host.log), |host.nodes|)
  }
}

=== FILE: links.dfy ===
/**
 * Links: what the `parent` / `firstChild` / `nextSibling` links of a well-formed
 * arena describe — a fiber's child chain, and the work a depth-first walk still
 * has to do once a fiber's subtree is finished.
 */
module Links {
  import opened Wrappers
  import opened Elements
  import opened Host
  import opened Fibers

  /** The consecutive indices `lo, lo + 1, ..., hi - 1`. */
  function Range(lo: nat, hi: nat): (r: seq<nat>)
    requires lo <= hi
    ensures |r| == hi - lo && forall k :: 0 <= k < |r| ==> r[k] == lo + k
  {
    seq(hi - lo, k requires 0 <= k < hi - lo => lo + k)
  }

  lemma RangeCons(lo: nat, hi: nat, tail: seq<nat>)
    requires lo < hi
    ensures [lo] + (Range(lo + 1, hi) + tail) == Range(lo, hi) + tail
  {
    assert Range(lo, hi) == [lo] + Range(lo + 1, hi);
  }

  /** The elements mirrored by the fibers at the given indices, in order. */
  function Views(a: Arena, xs: seq<nat>): (vs: seq<Element>)
    requires forall k :: 0 <= k < |xs| ==> xs[k] < |a|
    ensures |vs| == |xs| && forall k :: 0 <= k < |xs| ==> vs[k] == View(a[xs[k]])
  {
    seq(|xs|, k requires 0 <= k < |xs| => View(a[xs[k]]))
  }

  /** The number of `parent` links from fiber `j` up to a fiber without one. */
  ghost function Depth(a: Arena, j: nat): (d: nat)
    requires Valid(a) && j < |a|
    decreases j
  {
    assert LinksOk(a, j);
    match a[j].parent
    case None => 0
    case Some(p) => 1 + Depth(a, p)
  }

  /** A next sibling is as deep as the fiber it follows. */
  lemma DepthSibling(a: Arena, j: nat)
    requires Valid(a) && j < |a| && a[j].nextSibling.Some?
    ensures a[j].nextSibling.value < |a| && Depth(a, a[j].nextSibling.value) == Depth(a, j)
  {
    assert LinksOk(a, j);
    var s := a[j].nextSibling.value;
    assert LinksOk(a, s);
  }

  /** The fibers a depth-first walk still has to start from once the subtree of
      `j` is finished: the later siblings of `j`, then those of its parent, and so
      on up to the root. */
  ghost function Cont(a: Arena, j: nat): (r: seq<nat>)
    requires Valid(a) && j < |a|
    ensures forall k :: 0 <= k < |r| ==> r[k] < |a|
    decreases Depth(a, j), |a| - j
  {
    assert LinksOk(a, j);
    match a[j].nextSibling
    case Some(s) =>
      DepthSibling(a, j);
      [s] + Cont(a, s)
    case None =>
      match a[j].parent
      case None => []
      case Some(p) => Cont(a, p)
  }

  /** The chain `x -> nextSibling -> nextSibling -> ...`. */
  ghost function ChainFrom(a: Arena, x: Option<nat>): (r: seq<nat>)
    requires Valid(a) && (x.Some? ==> x.value < |a|)
    ensures forall k :: 0 <= k < |r| ==> r[k] < |a|
    decreases if x.Some? then |a| - x.value else 0
  {
    match x
    case None => []
    case Some(c) =>
      assert LinksOk(a, c);
      [c] + ChainFrom(a, a[c].nextSibling)
  }

  /** The child chain of fiber `j`: its first child and that child's siblings. */
  ghost function Chain(a: Arena, j: nat): (r: seq<nat>)
    requires Valid(a) && j < |a|
    ensures forall k :: 0 <= k < |r| ==> r[k] < |a|
  {
    assert LinksOk(a, j);
    ChainFrom(a, a[j].firstChild)
  }

  /** The walk up of the unit of work lands exactly on the first fiber the walk
      still has to do, and finds none exactly when nothing is left. */
  lemma {:induction false} WalkUpHeadsCont(a: Arena, j: nat)
    requires Valid(a) && j < |a|
    ensures WalkUp(a, j).None? <==> Cont(a, j) == []
    ensures WalkUp(a, j).Some? ==> Cont(a, j) == [WalkUp(a, j).value] + Cont(a, WalkUp(a, j).value)
    decreases j
  {
    assert LinksOk(a, j);
    match a[j].nextSibling
    case Some(s) =>
    case None =>
      match a[j].parent
      case None =>
      case Some(p) => WalkUpHeadsCont(a, p);
  }

  /** Two arenas that agree on the `parent` and `nextSibling` links of the first
      `|a|` fibers, the second possibly longer. */
  ghost predicate UpLinksAgree(a: Arena, b: Arena)
  {
    |a| <= |b| &&
    forall x :: 0 <= x < |a| ==> b[x].parent == a[x].parent && b[x].nextSibling == a[x].nextSibling
  }

  /** The remaining walk from an old fiber only reads `parent` and `nextSibling`
      links, so it survives any change that keeps them. */
  lemma {:induction false} ContFrame(a: Arena, b: Arena, j: nat)
    requires Valid(a) && Valid(b) && UpLinksAgree(a, b) && j < |a|
    ensures Cont(b, j) == Cont(a, j)
    decreases Depth(a, j), |a| - j
  {
    assert LinksOk(a, j);
    assert LinksOk(b, j);
    match a[j].nextSibling
    case Some(s) =>
      DepthSibling(a, j);
      ContFrame(a, b, s);
    case None =>
      match a[j].parent
      case None =>
      case Some(p) => ContFrame(a, b, p);
  }

  /** A sibling chain starting at an old fiber only reads `nextSibling` links. */
  lemma {:induction false} ChainFromFrame(a: Arena, b: Arena, x: Option<nat>)
    requires Valid(a) && Valid(b) && UpLinksAgree(a, b) && (x.Some? ==> x.value < |a|)
    ensures ChainFrom(b, x) == ChainFrom(a, x)
    decreases if x.Some? then |a| - x.value else 0
  {
    match x
    case None =>
    case Some(c) =>
      assert LinksOk(a, c);
      ChainFromFrame(a, b, a[c].nextSibling);
  }
}

=== FILE: mount.dfy ===
/**
 * Mount: what the host tree looks like after `render`, a complete run of units
 * of work and `commitRoot`. Every fiber holds its own host node, built by
 * `createDom` from the fiber's element. The root holds the container, or a
 * detached node `createDom` made when the container was `null`. In the append
 * log, every fiber's host node receives, in order, the host nodes of its
 * child elements; the log assumes every `appendChild` succeeds.
 */
module Mount {
  import opened Wrappers
  import opened Elements
  import opened Host
  import opened Fibers
  import opened Links
  import opened Engine
  import opened Traversal
  import opened Commit

  /** The host nodes the fibers hold: each exists, no two fibers share one, and
      the node of every fiber but the root is the one `createDom` builds from
      that fiber's kind and props. */
  ghost predicate HostOk(eng: Engine)
  {
    && (forall j :: 0 <= j < |eng.fibers| && eng.fibers[j].dom.Some? ==>
          eng.fibers[j].dom.value < |eng.host.nodes|)
    && (forall i, j :: 0 <= i < j < |eng.fibers| && eng.fibers[i].dom.Some? ==>
          eng.fibers[i].dom != eng.fibers[j].dom)
    && (forall j :: 0 < j < |eng.fibers| && eng.fibers[j].dom.Some? ==>
          eng.host.nodes[eng.fibers[j].dom.value] == NewNode(eng.fibers[j].kind, eng.fibers[j].props))
  }

  /** `render` on a container that exists (or is `null`) seeds host nodes that
      satisfy `HostOk`. */
  lemma RenderHostOk(eng: Engine, element: Element, container: Option<HostId>)
    requires ContainerOk(eng.host, container)
    ensures HostOk(Render(eng, element, container))
  {
  }

  /** A unit of work keeps `HostOk`: the only node it creates is fresh and built
      from the processed fiber, and the fibers it adds have no node yet. */
  lemma StepHostOk(eng: Engine)
    requires Ready(eng) && eng.nextUnit.Some? && HostOk(eng)
    ensures HostOk(Step(eng))
  {
    var a := eng.fibers;
    var i := eng.nextUnit.value;
    var n := |eng.host.nodes|;
    var r := UnitOfWork(a, eng.host, i);
    var b := r.fibers;
    var nodes := r.host.nodes;
    assert Step(eng).fibers == b && Step(eng).host == r.host;
    forall j | |a| <= j < |b| ensures b[j].dom.None? {
      assert b[j] == b[|a|..][j - |a|];
    }
    forall j | 0 <= j < |a| && b[j].dom.Some? && j != i
      ensures b[j].dom.value < n && nodes[b[j].dom.value] == eng.host.nodes[b[j].dom.value]
    {
      assert b[j] == a[j];
      assert nodes[..n][b[j].dom.value] == nodes[b[j].dom.value];
    }
    if a[i].dom.Some? {
      assert nodes == eng.host.nodes;
    } else {
      assert b[i].dom == Some(n);
    }
  }

  /** Any run keeps `HostOk`. */
  lemma {:induction false} RunHostOk(eng: Engine, units: nat)
    requires Ready(eng) && HostOk(eng)
    ensures HostOk(Run(eng, units).0)
    decreases units
  {
    if units > 0 && eng.nextUnit.Some? {
      StepHostOk(eng);
      RunHostOk(Step(eng), units - 1);
      RunHostOkStep(eng, units);
    }
  }

  /** The inductive step of `RunHostOk`. */
  lemma RunHostOkStep(eng: Engine, units: nat)
    requires Ready(eng) && eng.nextUnit.Some? && units > 0
    requires HostOk(Run(Step(eng), units - 1).0)
    ensures HostOk(Run(eng, units).0)
  {
    RunCons(eng, units - 1);
  }

  /** A run never replaces a host node a fiber already holds. */
  lemma {:induction false} RunKeepsDom(eng: Engine, units: nat, j: nat)
    requires Ready(eng) && j < |eng.fibers| && eng.fibers[j].dom.Some?
    ensures Run(eng, units).0.fibers[j].dom == eng.fibers[j].dom
    decreases units
  {
    if units > 0 && eng.nextUnit.Some? {
      var next := Step(eng);
      assert next.fibers[j].dom == eng.fibers[j].dom;
      RunKeepsDom(next, units - 1, j);
      RunCons(eng, units - 1);
    }
  }

  /** After `render` and a complete run, the root holds the container, or, for a
      `null` container, the node its own unit of work created first. */
  lemma RootDom(eng: Engine, element: Element, container: Option<HostId>)
    requires ContainerOk(eng.host, container)
    ensures var fin := Run(Render(eng, element, container), Size(element) + 1).0;
      && 0 < |fin.fibers|
      && fin.fibers[0].dom == if container.Some? then container else Some(|eng.host.nodes|)
  {
    var r := Render(eng, element, container);
    var units := Size(element) + 1;
    if container.Some? {
      RunKeepsDom(r, units, 0);
    } else {
      RunCons(r, units - 1);
      assert Step(r).fibers[0].dom == Some(|eng.host.nodes|);
      RunKeepsDom(Step(r), units - 1, 0);
    }
  }

  /** After `render` and any run, `HostOk` holds. */
  lemma RenderRunHostOk(eng: Engine, element: Element, container: Option<HostId>, units: nat)
    requires ContainerOk(eng.host, container)
    ensures HostOk(Run(Render(eng, element, container), units).0)
  {
    RenderHostOk(eng, element, container);
    RunHostOk(Render(eng, element, container), units);
  }

  /** Every fiber but the root holds a node created at or after `base`. */
  ghost predicate FreshFrom(eng: Engine, base: nat)
  {
    && base <= |eng.host.nodes|
    && forall j :: 0 < j < |eng.fibers| && eng.fibers[j].dom.Some? ==> base <= eng.fibers[j].dom.value
  }

  /** A unit of work keeps `FreshFrom`: host nodes are only ever added. */
  lemma StepFreshFrom(eng: Engine, base: nat)
    requires Ready(eng) && eng.nextUnit.Some? && FreshFrom(eng, base)
    ensures FreshFrom(Step(eng), base)
  {
    var a := eng.fibers;
    var r := UnitOfWork(a, eng.host, eng.nextUnit.value);
    forall j | |a| <= j < |r.fibers| ensures r.fibers[j].dom.None? {
      assert r.fibers[j] == r.fibers[|a|..][j - |a|];
    }
  }

  /** Any run keeps `FreshFrom`. */
  lemma {:induction false} RunFreshFrom(eng: Engine, units: nat, base: nat)
    requires Ready(eng) && FreshFrom(eng, base)
    ensures FreshFrom(Run(eng, units).0, base)
    decreases units
  {
    if units > 0 && eng.nextUnit.Some? {
      StepFreshFrom(eng, base);
      RunFreshFrom(Step(eng), units - 1, base);
      RunCons(eng, units - 1);
    }
  }

  /** A unit of work keeps every existing host node as it was and can only add
      nodes after them. */
  lemma StepKeepsNodes(eng: Engine)
    requires Ready(eng) && eng.nextUnit.Some?
    ensures |eng.host.nodes| <= |Step(eng).host.nodes|
    ensures Step(eng).host.nodes[..|eng.host.nodes|] == eng.host.nodes
  {
    var r := UnitOfWork(eng.fibers, eng.host, eng.nextUnit.value);
    assert Step(eng).host == r.host;
  }

  /** A run only adds host nodes: the container and every node that existed
      before keep their place and content. */
  lemma {:induction false} RunKeepsNodes(eng: Engine, units: nat)
    requires Ready(eng)
    ensures |eng.host.nodes| <= |Run(eng, units).0.host.nodes|
    ensures Run(eng, units).0.host.nodes[..|eng.host.nodes|] == eng.host.nodes
    decreases units
  {
    if units > 0 && eng.nextUnit.Some? {
      var s := Step(eng);
      var fin := Run(s, units - 1).0;
      assert |eng.host.nodes| <= |s.host.nodes| && s.host.nodes[..|eng.host.nodes|] == eng.host.nodes by {
        StepKeepsNodes(eng);
      }
      assert |s.host.nodes| <= |fin.host.nodes| && fin.host.nodes[..|s.host.nodes|] == s.host.nodes by {
        RunKeepsNodes(s, units - 1);
      }
      assert Run(eng, units).0 == fin by {
        RunCons(eng, units - 1);
      }
      PrefixOfPrefix(eng.host.nodes, s.host.nodes, fin.host.nodes);
    }
  }

  /** A prefix of a prefix is a prefix. */
  lemma PrefixOfPrefix<T>(x: seq<T>, y: seq<T>, z: seq<T>)
    requires |x| <= |y| <= |z| && y[..|x|] == x && z[..|y|] == y
    ensures z[..|x|] == x
  {
    assert z[..|x|] == z[..|y|][..|x|];
  }

  /** The entries of `order` whose parent fiber is `j`, in order (entries
      outside the arena have no parent). */
  ghost function WithParent(a: Arena, order: seq<nat>, j: nat): (kids: seq<nat>)
  {
    if order == [] then []
    else (if order[0] < |a| && a[order[0]].parent == Some(j) then [order[0]] else []) + WithParent(a, order[1..], j)
  }

  lemma {:induction false} WithParentAppend(a: Arena, xs: seq<nat>, ys: seq<nat>, j: nat)
    ensures WithParent(a, xs + ys, j) == WithParent(a, xs, j) + WithParent(a, ys, j)
    decreases |xs|
  {
    if xs == [] {
      assert xs + ys == ys;
    } else {
      var h := if xs[0] < |a| && a[xs[0]].parent == Some(j) then [xs[0]] else [];
      var zs := xs + ys;
      assert zs[0] == xs[0] && zs[1..] == xs[1..] + ys;
      assert WithParent(a, zs, j) == h + WithParent(a, xs[1..] + ys, j);
      assert WithParent(a, xs, j) == h + WithParent(a, xs[1..], j);
      WithParentAppend(a, xs[1..], ys, j);
      assert h + (WithParent(a, xs[1..], j) + WithParent(a, ys, j))
          == (h + WithParent(a, xs[1..], j)) + WithParent(a, ys, j);
    }
  }

  /** An entry of the middle part of a repeat-free `[c] + xs + ys` is not in `ys`. */
  lemma DistinctParts(c: nat, xs: seq<nat>, ys: seq<nat>, y: nat)
    requires Distinct([c] + xs + ys) && y in xs
    ensures y !in ys
  {
    var r := [c] + xs + ys;
    var p :| 0 <= p < |xs| && xs[p] == y;
    forall q | 0 <= q < |ys| ensures ys[q] != y {
      assert r[1 + p] == xs[p] && r[1 + |xs| + q] == ys[q];
    }
  }

  /** The commit walk from `x` reaches the children of fiber `j` in the order of
      `j`'s child chain: the rest of the chain from `x` when `x` is itself a child
      of `j`, all of it when `j` lies on the walk, and none otherwise. */
  lemma CommitOrderByParent(a: Arena, x: Option<nat>, j: nat)
    requires Valid(a) && (x.Some? ==> x.value < |a|) && j < |a|
    ensures WithParent(a, CommitOrder(a, x), j) ==
      if x.Some? && a[x.value].parent == Some(j) then ChainFrom(a, x)
      else if j in CommitOrder(a, x) then Chain(a, j)
      else []
  {
    if x.Some? {
      if a[x.value].parent == Some(j) {
        WalkFindsRestOfChain(a, x, j);
      } else {
        WalkFindsWholeChain(a, x, j);
      }
    }
  }

  /** When `x` is a child of `p`, the walk from `x` reaches exactly the children
      of `p` from `x` on, in chain order. */
  lemma {:induction false} WalkFindsRestOfChain(a: Arena, x: Option<nat>, p: nat)
    requires Valid(a) && x.Some? && x.value < |a| && p < |a| && a[x.value].parent == Some(p)
    ensures WithParent(a, CommitOrder(a, x), p) == ChainFrom(a, x)
    decreases |a| - x.value, 0
  {
    var c := x.value;
    assert LinksOk(a, c);
    var first := a[c].firstChild;
    var next := a[c].nextSibling;
    WalkSplit(a, c, p);
    assert WithParent(a, CommitOrder(a, first), p) == [] by {
      if first.Some? {
        WalkFindsWholeChain(a, first, p);
        CommitOrderAbove(a, first, p);
      }
    }
    assert WithParent(a, CommitOrder(a, next), p) == ChainFrom(a, next) by {
      if next.Some? {
        WalkFindsRestOfChain(a, next, p);
      }
    }
    assert ChainFrom(a, x) == [c] + ChainFrom(a, next);
  }

  /** The walk from `x` reaches the children of `x` itself as its child chain. */
  lemma {:induction false} WalkFindsOwnChain(a: Arena, x: Option<nat>)
    requires Valid(a) && x.Some? && x.value < |a|
    ensures WithParent(a, CommitOrder(a, x), x.value) == Chain(a, x.value)
    decreases |a| - x.value, 0
  {
    var c := x.value;
    assert LinksOk(a, c);
    var first := a[c].firstChild;
    var next := a[c].nextSibling;
    WalkSplit(a, c, c);
    assert WithParent(a, CommitOrder(a, first), c) == Chain(a, c) by {
      if first.Some? {
        WalkFindsRestOfChain(a, first, c);
      }
    }
    assert WithParent(a, CommitOrder(a, next), c) == [] by {
      if next.Some? {
        WalkFindsWholeChain(a, next, c);
      }
    }
  }

  /** When `x` is not a child of `j`, the walk from `x` reaches the children of
      `j` in chain order if it reaches `j`, and none of them otherwise. */
  lemma {:induction false} WalkFindsWholeChain(a: Arena, x: Option<nat>, j: nat)
    requires Valid(a) && x.Some? && x.value < |a| && j < |a| && a[x.value].parent != Some(j)
    ensures WithParent(a, CommitOrder(a, x), j) == if j in CommitOrder(a, x) then Chain(a, j) else []
    decreases |a| - x.value, 1
  {
    var c := x.value;
    assert LinksOk(a, c);
    if j == c {
      WalkFindsOwnChain(a, x);
      assert CommitOrder(a, x)[0] == c;
    } else {
      var first := a[c].firstChild;
      var next := a[c].nextSibling;
      if first.Some? {
        WalkFindsWholeChain(a, first, j);
      }
      if next.Some? {
        WalkFindsWholeChain(a, next, j);
      }
      WholeChainJoin(a, c, j);
    }
  }

  /** The inductive step of `WalkFindsWholeChain` when `j` is not `c`. */
  lemma WholeChainJoin(a: Arena, c: nat, j: nat)
    requires Valid(a) && c < |a| && j < |a| && LinksOk(a, c) && j != c && a[c].parent != Some(j)
    requires var xs := CommitOrder(a, a[c].firstChild);
      WithParent(a, xs, j) == if j in xs then Chain(a, j) else []
    requires var ys := CommitOrder(a, a[c].nextSibling);
      WithParent(a, ys, j) == if j in ys then Chain(a, j) else []
    ensures WithParent(a, CommitOrder(a, Some(c)), j) == if j in CommitOrder(a, Some(c)) then Chain(a, j) else []
  {
    var xs := CommitOrder(a, a[c].firstChild);
    var ys := CommitOrder(a, a[c].nextSibling);
    var co := CommitOrder(a, Some(c));
    WalkSplit(a, c, j);
    JoinWhole(c, j, co, xs, ys, WithParent(a, co, j), WithParent(a, xs, j), WithParent(a, ys, j), Chain(a, j));
  }

  /** The sequence reasoning of `WholeChainJoin`. */
  lemma JoinWhole(c: nat, j: nat, co: seq<nat>, xs: seq<nat>, ys: seq<nat>,
                  w: seq<nat>, wx: seq<nat>, wy: seq<nat>, chain: seq<nat>)
    requires co == [c] + xs + ys && j != c
    requires w == [] + wx + wy
    requires wx == (if j in xs then chain else []) && wy == (if j in ys then chain else [])
    requires j in xs ==> j !in ys
    ensures w == if j in co then chain else []
  {
  }

  /** The walk from `c` is `c`, the walk below it and the walk of its later
      siblings; `c` occurs once, and no fiber occurs in both parts. */
  lemma WalkSplit(a: Arena, c: nat, j: nat)
    requires Valid(a) && c < |a| && LinksOk(a, c)
    ensures var xs := CommitOrder(a, a[c].firstChild);
      var ys := CommitOrder(a, a[c].nextSibling);
      && CommitOrder(a, Some(c)) == [c] + xs + ys
      && WithParent(a, CommitOrder(a, Some(c)), j) ==
           (if a[c].parent == Some(j) then [c] else []) + WithParent(a, xs, j) + WithParent(a, ys, j)
      && c !in xs && c !in ys
      && (j in xs ==> j !in ys)
  {
    var first := a[c].firstChild;
    var next := a[c].nextSibling;
    var xs := CommitOrder(a, first);
    var ys := CommitOrder(a, next);
    var co := CommitOrder(a, Some(c));
    assert co == [c] + xs + ys;
    assert WithParent(a, co, j) == WithParent(a, [c], j) + WithParent(a, xs, j) + WithParent(a, ys, j) by {
      WithParentAppend(a, [c], xs, j);
      WithParentAppend(a, [c] + xs, ys, j);
    }
    assert WithParent(a, [c], j) == if a[c].parent == Some(j) then [c] else [] by {
      assert [c][1..] == [];
    }
    assert j in xs ==> j !in ys by {
      CommitOrderDistinct(a, Some(c));
      if j in xs {
        DistinctParts(c, xs, ys, j);
      }
    }
    CommitOrderAbove(a, first, c);
    CommitOrderAbove(a, next, c);
  }

  /** The commit walk from `x` reaches nothing before `x`. */
  lemma CommitOrderAbove(a: Arena, x: Option<nat>, v: nat)
    requires Valid(a) && (x.Some? ==> v < x.value < |a|)
    ensures v !in CommitOrder(a, x)
  {
  }

  /** The child node of every append in `log` under host node `d`, in order. */
  function ChildrenUnder(log: seq<Append>, d: HostId): (children: seq<HostId>)
  {
    if log == [] then []
    else (if log[0].parent == d then [log[0].child] else []) + ChildrenUnder(log[1..], d)
  }

  /** The host nodes of the fibers at the given indices, in order (fibers
      without one are skipped). */
  ghost function Doms(a: Arena, xs: seq<nat>): (ds: seq<HostId>)
  {
    if xs == [] then []
    else (if xs[0] < |a| && a[xs[0]].dom.Some? then [a[xs[0]].dom.value] else []) + Doms(a, xs[1..])
  }

  /** When no two fibers share a host node, the appends along `order` place under
      the node of fiber `j` exactly the nodes of the fibers of `order` whose
      parent is `j`, in order. */
  lemma {:induction false} AppendsUnder(a: Arena, order: seq<nat>, j: nat)
    requires Committable(a, order)
    requires forall k :: 0 <= k < |order| ==> a[a[order[k]].parent.value].dom.Some?
    requires j < |a| && a[j].dom.Some?
    requires forall i, i' :: 0 <= i < i' < |a| && a[i].dom.Some? ==> a[i].dom != a[i'].dom
    ensures ChildrenUnder(Appends(a, order), a[j].dom.value) == Doms(a, WithParent(a, order, j))
    decreases |order|
  {
    if order != [] {
      var o := order[0];
      var pa := a[o].parent.value;
      var rest := order[1..];
      assert Committable(a, rest) by {
        forall k | 0 <= k < |rest| ensures rest[k] == order[k + 1] { }
      }
      assert forall k :: 0 <= k < |rest| ==> a[a[rest[k]].parent.value].dom.Some? by {
        forall k | 0 <= k < |rest| ensures rest[k] == order[k + 1] { }
      }
      AppendsUnder(a, rest, j);
      var log := Appends(a, order);
      var tail := Appends(a, rest);
      assert log == [Append(a[pa].dom.value, a[o].dom.value)] + tail;
      assert log[0] == Append(a[pa].dom.value, a[o].dom.value) && log[1..] == tail;
      assert (a[pa].dom.value == a[j].dom.value) == (pa == j) by {
        if pa < j {
          assert a[pa].dom != a[j].dom;
        } else if j < pa {
          assert a[j].dom != a[pa].dom;
        }
      }
      var w := WithParent(a, rest, j);
      if pa == j {
        assert WithParent(a, order, j) == [o] + w;
        assert ([o] + w)[0] == o && ([o] + w)[1..] == w;
      } else {
        assert WithParent(a, order, j) == w;
      }
    }
  }

  /** The commit walk from the root's first child, when it reaches every other
      fiber, reaches the children of each fiber as that fiber's child chain. */
  lemma RootWalkByParent(a: Arena)
    requires Valid(a) && 0 < |a| && LinksOk(a, 0)
    requires forall j :: 0 < j < |a| ==> j in CommitOrder(a, a[0].firstChild)
    ensures forall j :: 0 <= j < |a| ==> WithParent(a, CommitOrder(a, a[0].firstChild), j) == Chain(a, j)
  {
    var first := a[0].firstChild;
    forall j | 0 <= j < |a| ensures WithParent(a, CommitOrder(a, first), j) == Chain(a, j) {
      CommitOrderByParent(a, first, j);
    }
  }

  /** A finished walk whose commit order reaches every fiber but the root, with
      no two fibers sharing a host node: the commit appends under each fiber's
      node the nodes of its child chain, in order. */
  lemma CommitUnderEachFiber(fin: Engine)
    requires Ready(fin) && fin.wipRoot == Some(0) && 0 < |fin.fibers| && HostOk(fin)
    requires forall j :: 0 <= j < |fin.fibers| ==> fin.fibers[j].dom.Some?
    requires forall j :: 0 < j < |fin.fibers| ==> j in RootCommitOrder(fin)
    ensures forall j :: 0 <= j < |fin.fibers| ==>
      ChildrenUnder(Appends(fin.fibers, RootCommitOrder(fin)), fin.fibers[j].dom.value) == Doms(fin.fibers, Chain(fin.fibers, j))
  {
    var a := fin.fibers;
    var order := RootCommitOrder(fin);
    assert LinksOk(a, 0);
    RootWalkByParent(a);
    forall k | 0 <= k < |order| ensures a[a[order[k]].parent.value].dom.Some? {
      assert LinksOk(a, order[k]);
    }
    forall j | 0 <= j < |a| ensures ChildrenUnder(Appends(a, order), a[j].dom.value) == Doms(a, Chain(a, j)) {
      AppendsUnder(a, order, j);
    }
  }

  /** A finished walk whose commit order has no repeats, with no two fibers
      sharing a host node and every non-root node created from `base` on: the
      commit appends pairwise distinct nodes, all created from `base` on. */
  lemma CommitAppendsDistinct(fin: Engine, base: nat)
    requires Ready(fin) && fin.wipRoot == Some(0) && HostOk(fin) && FreshFrom(fin, base)
    requires forall j :: 0 <= j < |fin.fibers| ==> fin.fibers[j].dom.Some?
    requires Distinct(RootCommitOrder(fin))
    ensures var added := Appends(fin.fibers, RootCommitOrder(fin));
      && |added| == |RootCommitOrder(fin)|
      && (forall k :: 0 <= k < |added| ==> base <= added[k].child)
      && (forall k, m :: 0 <= k < m < |added| ==> added[k].child != added[m].child)
  {
    var a := fin.fibers;
    var order := RootCommitOrder(fin);
    forall k | 0 <= k < |order| ensures a[a[order[k]].parent.value].dom.Some? {
      assert LinksOk(a, order[k]);
    }
    var added := Appends(a, order);
    forall k, m | 0 <= k < m < |added| ensures added[k].child != added[m].child {
      assert order[k] != order[m];
      if order[k] < order[m] {
        assert a[order[k]].dom != a[order[m]].dom;
      } else {
        assert a[order[m]].dom != a[order[k]].dom;
      }
    }
  }

  /** Theorem: after `render` and a complete run of units of work, `commitRoot`
      appends under the host node of every fiber exactly the host nodes of the
      fibers of its child elements, in element order. The root's node is the
      container (for a `null` container, the first node the run created). */
  lemma CommitMountsTree(eng: Engine, element: Element, container: Option<HostId>)
    requires ContainerOk(eng.host, container)
    ensures var fin := Run(Render(eng, element, container), Size(element) + 1).0;
      var a := fin.fibers;
      && fin.wipRoot == Some(0) && Valid(a) && 0 < |a|
      && (forall j :: 0 <= j < |a| ==> a[j].dom.Some?)
      && a[0].dom == (if container.Some? then container else Some(|eng.host.nodes|))
      && var added := Appends(a, RootCommitOrder(fin));
      && CommitRoot(fin).host.log == eng.host.log + added
      && forall j :: 0 <= j < |a| ==>
           && Views(a, Chain(a, j)) == a[j].children
           && ChildrenUnder(added, a[j].dom.value) == Doms(a, Chain(a, j))
  {
    var fin := Run(Render(eng, element, container), Size(element) + 1).0;
    RootChain(eng, element, container);
    RenderRunHostOk(eng, element, container, Size(element) + 1);
    RenderThenCommit(eng, element, container);
    CommitAppendsEachOnceInOrder(eng, element, container);
    CommitUnderEachFiber(fin);
    RootDom(eng, element, container);
  }

  /** Theorem: after `render` and a complete run of units of work, every fiber
      but the root holds its own host node, created during the run by
      `createDom` from that fiber's kind and props. */
  lemma RunCreatesOwnNodes(eng: Engine, element: Element, container: Option<HostId>)
    requires ContainerOk(eng.host, container)
    ensures var fin := Run(Render(eng, element, container), Size(element) + 1).0;
      var a := fin.fibers;
      && (forall j :: 0 <= j < |a| ==> a[j].dom.Some?)
      && (forall i, j :: 0 <= i < j < |a| ==> a[i].dom != a[j].dom)
      && (forall j :: 0 < j < |a| ==>
            && |eng.host.nodes| <= a[j].dom.value < |fin.host.nodes|
            && fin.host.nodes[a[j].dom.value] == NewNode(a[j].kind, a[j].props))
  {
    var r := Render(eng, element, container);
    RootChain(eng, element, container);
    RenderRunHostOk(eng, element, container, Size(element) + 1);
    RunFreshFrom(r, Size(element) + 1, |eng.host.nodes|);
  }

  /** Theorem: the host nodes `commitRoot` appends after `render` and a complete
      run are pairwise distinct, and none of them is the
      container or any other node the host held before `render`. */
  lemma CommitAppendsFreshNodes(eng: Engine, element: Element, container: Option<HostId>)
    requires ContainerOk(eng.host, container)
    ensures var fin := Run(Render(eng, element, container), Size(element) + 1).0;
      && fin.wipRoot == Some(0)
      && (forall j :: 0 <= j < |fin.fibers| ==> fin.fibers[j].dom.Some?)
      && var added := Appends(fin.fibers, RootCommitOrder(fin));
      && (forall k :: 0 <= k < |added| ==> |eng.host.nodes| <= added[k].child)
      && (forall k, m :: 0 <= k < m < |added| ==> added[k].child != added[m].child)
  {
    var r := Render(eng, element, container);
    var fin := Run(r, Size(element) + 1).0;
    RootChain(eng, element, container);
    RenderRunHostOk(eng, element, container, Size(element) + 1);
    RunFreshFrom(r, Size(element) + 1, |eng.host.nodes|);
    CommitAppendsEachOnceInOrder(eng, element, container);
    CommitAppendsDistinct(fin, |eng.host.nodes|);
  }
}


=== FILE: planning.dfy ===
/**
 * Planning: what one unit of work does to the shape of the fiber tree — the
 * child chain it builds and the next unit it picks.
 */
module Planning {
  import opened Wrappers
  import opened Elements
  import opened Host
  import opened Fibers
  import opened Links

  /** The fibers still to be started, in walk order, when `next` is the next unit. */
  ghost function Pending(a: Arena, next: Option<nat>): (r: seq<nat>)
    requires Valid(a) && (next.Some? ==> next.value < |a|)
    ensures forall k :: 0 <= k < |r| ==> r[k] < |a|
  {
    match next
    case None => []
    case Some(c) => [c] + Cont(a, c)
  }

  /** The fiber at `|a| + k` of `r` is the one created for the `k`-th child of `i`. */
  ghost predicate NewChildAt(a: Arena, i: nat, r: Arena, k: nat)
    requires i < |a| && k < |a[i].children| && |a| + k < |r|
  {
    && View(r[|a| + k]) == a[i].children[k]
    && r[|a| + k].parent == Some(i) && r[|a| + k].dom.None? && r[|a| + k].firstChild.None?
    && r[|a| + k].nextSibling == (if k + 1 < |a[i].children| then Some(|a| + k + 1) else None)
  }

  /** `r` is `a` after fiber `i` got its child fibers: the old fibers keep their
      elements and their `parent`/`nextSibling` links, only `i` gets a new first
      child, and one new fiber per child element follows. */
  ghost predicate AddsChildren(a: Arena, i: nat, r: Arena)
  {
    && Valid(a) && Valid(r) && i < |a| && UpLinksAgree(a, r)
    && |r| == |a| + |a[i].children|
    && (forall k :: 0 <= k < |a[i].children| ==> NewChildAt(a, i, r, k))
    && (forall j :: 0 <= j < |a| ==> View(r[j]) == View(a[j]))
    && (forall j :: 0 <= j < |a| && j != i ==> r[j].firstChild == a[j].firstChild)
    && r[i].firstChild == (if a[i].children == [] then a[i].firstChild else Some(|a|))
  }

  lemma UnitOfWorkAddsChildren(a: Arena, host: HostTree, i: nat)
    requires Valid(a) && i < |a|
    ensures AddsChildren(a, i, UnitOfWork(a, host, i).fibers)
  {
    var r := UnitOfWork(a, host, i).fibers;
    forall k | 0 <= k < |a[i].children|
      ensures NewChildAt(a, i, r, k)
    {
      assert r[|a| + k] == r[|a|..][k];
    }
  }

  /** The new child fibers, read along their `nextSibling` links from the `k`-th,
      are the remaining new fibers in order. */
  lemma {:induction false} NewSiblingChain(a: Arena, i: nat, r: Arena, k: nat)
    requires AddsChildren(a, i, r) && k < |a[i].children|
    ensures ChainFrom(r, Some(|a| + k)) == Range(|a| + k, |r|)
    decreases |a[i].children| - k
  {
    assert NewChildAt(a, i, r, k);
    if k + 1 < |a[i].children| {
      NewSiblingChain(a, i, r, k + 1);
    }
  }

  /** Once the subtree of the `k`-th new child is done, the walk goes on with the
      later new children and then with what was left after the parent. */
  lemma {:induction false} NewSiblingCont(a: Arena, i: nat, r: Arena, k: nat)
    requires AddsChildren(a, i, r) && k < |a[i].children|
    ensures Cont(r, |a| + k) == Range(|a| + k + 1, |r|) + Cont(a, i)
    decreases |a[i].children| - k
  {
    assert NewChildAt(a, i, r, k);
    assert LinksOk(r, |a| + k);
    if k + 1 < |a[i].children| {
      NewSiblingCont(a, i, r, k + 1);
      assert Range(|a| + k + 1, |r|) == [|a| + k + 1] + Range(|a| + k + 2, |r|);
    } else {
      ContFrame(a, r, i);
    }
  }

  /** Processing a fiber with `n` child elements chains `n`
      new fibers under it, in element order, each mirroring its element, with the
      processed fiber as parent and no host node yet. */
  lemma ChildChainMirrorsElements(a: Arena, host: HostTree, i: nat)
    requires Valid(a) && i < |a| && (a[i].children != [] || a[i].firstChild.None?)
    ensures var r := UnitOfWork(a, host, i).fibers;
      && Chain(r, i) == Range(|a|, |r|)
      && Views(r, Chain(r, i)) == a[i].children
      && forall c :: c in Chain(r, i) ==> r[c].parent == Some(i) && r[c].dom.None? && r[c].firstChild.None?
  {
    var r := UnitOfWork(a, host, i).fibers;
    UnitOfWorkAddsChildren(a, host, i);
    if a[i].children != [] {
      NewSiblingChain(a, i, r, 0);
    }
    forall k | 0 <= k < |a[i].children|
      ensures View(r[|a| + k]) == a[i].children[k]
      ensures r[|a| + k].parent == Some(i) && r[|a| + k].dom.None? && r[|a| + k].firstChild.None?
    {
      assert NewChildAt(a, i, r, k);
    }
  }

  /** After fiber `i` got its children, the fibers still to be started are its
      new children, in order, followed by whatever was left after it. */
  lemma AddsChildrenPending(a: Arena, i: nat, r: Arena)
    requires AddsChildren(a, i, r) && a[i].firstChild.None?
    ensures Pending(r, NextUnit(r, i)) == Range(|a|, |r|) + Cont(a, i)
  {
    if a[i].children != [] {
      PendingFirstChild(a, i, r);
    } else {
      PendingWalkUp(a, i, r);
    }
  }

  lemma PendingFirstChild(a: Arena, i: nat, r: Arena)
    requires AddsChildren(a, i, r) && a[i].children != []
    ensures Pending(r, NextUnit(r, i)) == Range(|a|, |r|) + Cont(a, i)
  {
    NewSiblingCont(a, i, r, 0);
    PendingFromFirst(r, i, |a|, Cont(a, i));
  }

  /** When fiber `i`'s first child is `c` and the walk after `c` is the fibers
      from `c + 1` on followed by `tail`, the walk from `i`'s next unit is the
      fibers from `c` on followed by `tail`. */
  lemma PendingFromFirst(r: Arena, i: nat, c: nat, tail: seq<nat>)
    requires Valid(r) && i < |r| && c < |r| && r[i].firstChild == Some(c)
    requires Cont(r, c) == Range(c + 1, |r|) + tail
    ensures Pending(r, NextUnit(r, i)) == Range(c, |r|) + tail
  {
    assert NextUnit(r, i) == Some(c);
    RangeCons(c, |r|, tail);
  }

  lemma PendingWalkUp(a: Arena, i: nat, r: Arena)
    requires AddsChildren(a, i, r) && a[i].children == [] && a[i].firstChild.None?
    ensures Pending(r, NextUnit(r, i)) == Range(|a|, |r|) + Cont(a, i)
  {
    assert NextUnit(r, i) == WalkUp(r, i);
    WalkUpHeadsCont(r, i);
    ContFrame(a, r, i);
    assert Range(|a|, |r|) == [];
  }

  /** After a unit of work on a fiber not yet
      processed, the fibers still to be started are its new children, in order,
      followed by whatever was left after it. So the next unit is the first child
      when there is one, otherwise the nearest next sibling of the fiber or of an
      ancestor, and nothing once the root is passed. */
  lemma PlanPending(a: Arena, host: HostTree, i: nat)
    requires Valid(a) && i < |a| && a[i].firstChild.None?
    ensures var p := UnitOfWork(a, host, i);
      Pending(p.fibers, p.next) == Range(|a|, |p.fibers|) + Cont(a, i)
  {
    UnitOfWorkAddsChildren(a, host, i);
    AddsChildrenPending(a, i, UnitOfWork(a, host, i).fibers);
  }
}

=== FILE: scheduler.dfy ===
/**
 * Scheduler: `workLoop(deadline)` from src/index.js. One call is one idle
 * slice: it performs units of work until none is left or the deadline says to
 * yield, and commits the work-in-progress root once the last unit is done. The
 * idle-callback registration that calls it again is the `Drive` loop below.
 */
module Scheduler {
  import opened Wrappers
  import opened Elements
  import opened Host
  import opened Fibers
  import opened Engine
  import opened Traversal
  import opened Commit

  /** The inductive step of `RunSnoc`: the claim for the run from after the
      first unit gives it for the run from before. */
  lemma RunSnocStep(eng: Engine, n: nat)
    requires Ready(eng) && eng.nextUnit.Some? && n > 0
    requires |Run(eng, n).1| == n && Run(eng, n).0.nextUnit.Some?
    requires |Run(Step(eng), n - 1).1| == n - 1 && Run(Step(eng), n - 1).0.nextUnit.Some?
    requires Run(Step(eng), n).0 == Step(Run(Step(eng), n - 1).0)
    requires Run(Step(eng), n).1 == Run(Step(eng), n - 1).1 + [Run(Step(eng), n - 1).0.nextUnit.value]
    ensures Run(eng, n + 1).0 == Step(Run(eng, n).0)
    ensures Run(eng, n + 1).1 == Run(eng, n).1 + [Run(eng, n).0.nextUnit.value]
  {
    var s := Step(eng);
    RunCons(eng, n);
    RunCons(eng, n - 1);
    var c := eng.nextUnit.value;
    var mid := Run(s, n - 1);
    AppendAssoc([c], mid.1, [mid.0.nextUnit.value]);
  }

  lemma AppendAssoc<T>(x: seq<T>, y: seq<T>, z: seq<T>)
    ensures x + (y + z) == (x + y) + z
  {
  }

  /** A run that used all `n` units and still has work extends by one `Step`. */
  lemma {:induction false} RunSnoc(eng: Engine, n: nat)
    requires Ready(eng)
    requires |Run(eng, n).1| == n && Run(eng, n).0.nextUnit.Some?
    ensures Run(eng, n + 1).0 == Step(Run(eng, n).0)
    ensures Run(eng, n + 1).1 == Run(eng, n).1 + [Run(eng, n).0.nextUnit.value]
    decreases n
  {
    if n == 0 {
      RunCons(eng, 0);
    } else {
      assert eng.nextUnit.Some?;
      RunCons(eng, n - 1);
      RunSnoc(Step(eng), n - 1);
      RunSnocStep(eng, n);
    }
  }

  /** Two consecutive runs that use their whole first budget are one run:
      slices compose. */
  lemma {:induction false} RunAdd(eng: Engine, m: nat, n: nat)
    requires Ready(eng) && |Run(eng, m).1| == m
    ensures Run(Run(eng, m).0, n).0 == Run(eng, m + n).0
    ensures Run(eng, m + n).1 == Run(eng, m).1 + Run(Run(eng, m).0, n).1
    decreases m
  {
    if m > 0 {
      assert eng.nextUnit.Some?;
      RunCons(eng, m - 1);
      RunAdd(Step(eng), m - 1, n);
      RunAddStep(eng, m, n);
    }
  }

  /** The inductive step of `RunAdd`. */
  lemma RunAddStep(eng: Engine, m: nat, n: nat)
    requires Ready(eng) && eng.nextUnit.Some? && m > 0
    requires Run(eng, m) == (Run(Step(eng), m - 1).0, [eng.nextUnit.value] + Run(Step(eng), m - 1).1)
    requires Run(Run(Step(eng), m - 1).0, n).0 == Run(Step(eng), m - 1 + n).0
    requires Run(Step(eng), m - 1 + n).1 == Run(Step(eng), m - 1).1 + Run(Run(Step(eng), m - 1).0, n).1
    ensures Run(Run(eng, m).0, n).0 == Run(eng, m + n).0
    ensures Run(eng, m + n).1 == Run(eng, m).1 + Run(Run(eng, m).0, n).1
  {
    RunCons(eng, m - 1 + n);
    var mid := Run(Step(eng), m - 1);
    AppendAssoc([eng.nextUnit.value], mid.1, Run(mid.0, n).1);
  }

  /** Two runs that both finish end in the same state, whatever their budgets. */
  lemma {:induction false} RunFinishedAgree(eng: Engine, m: nat, n: nat)
    requires Ready(eng)
    requires Run(eng, m).0.nextUnit.None? && Run(eng, n).0.nextUnit.None?
    ensures Run(eng, m).0 == Run(eng, n).0
    decreases m
  {
    if eng.nextUnit.Some? {
      FinishedAfterStep(eng, m);
      FinishedAfterStep(eng, n);
      RunFinishedAgree(Step(eng), m - 1, n - 1);
    }
  }

  /** A run from a state with work that finishes used at least one unit, and
      ends where the run from after that unit ends. */
  lemma FinishedAfterStep(eng: Engine, m: nat)
    requires Ready(eng) && eng.nextUnit.Some? && Run(eng, m).0.nextUnit.None?
    ensures m > 0 && Run(Step(eng), m - 1).0 == Run(eng, m).0
  {
    assert m > 0;
    RunCons(eng, m - 1);
  }

  /** `cur` is the state after `units` units of work from `eng`, all of which ran. */
  ghost predicate Ran(eng: Engine, units: nat, cur: Engine)
    requires Ready(eng)
  {
    |Run(eng, units).1| == units && cur == Run(eng, units).0
  }

  /** From a state satisfying the invariant, a run of as many units as there are
      elements left to visit has no work left. */
  lemma RunBounded(eng: Engine)
    requires Inv(eng)
    ensures forall n :: |Todo(eng)| <= n ==> Run(eng, n).0.nextUnit.None?
  {
    forall n | |Todo(eng)| <= n
      ensures Run(eng, n).0.nextUnit.None?
    {
      RunWalksTodo(eng, n);
    }
  }

  /** A finished walk can be committed, and committing keeps the invariant. */
  lemma CommitKeepsInv(cur: Engine)
    requires Inv(cur) && cur.nextUnit.None? && cur.wipRoot.Some?
    ensures forall j :: 0 <= j < |cur.fibers| ==> cur.fibers[j].dom.Some?
    ensures Inv(CommitRoot(cur))
  {
    FinishedIsComplete(cur);
    var r := CommitRoot(cur);
    assert PendingOf(r) == PendingOf(cur);
  }

  /** The loop body of `workLoop` on the explicit state: perform the next unit
      and adopt the unit it plans, which is one more unit of the run from `eng`. */
  method Advance(ghost eng: Engine, ghost units: nat, cur: Engine) returns (r: Engine)
    requires Ready(eng) && cur.nextUnit.Some? && Ran(eng, units, cur)
    ensures Ran(eng, units + 1, r)
  {
    RunSnoc(eng, units);
    var fibers, host, next := PerformAndPlanUnitOfWork(cur.fibers, cur.host, cur.nextUnit.value);
    r := Engine(fibers, host, next, cur.wipRoot);
  }

  /** The `while` loop of `workLoop`: units of work until none is left or the
      deadline, read after each unit, says to yield. */
  method PerformSlice(eng: Engine, remaining: nat -> int, ghost bound: nat) returns (cur: Engine, units: nat)
    requires Ready(eng)
    requires forall n :: bound <= n ==> Run(eng, n).0.nextUnit.None?
    ensures Ran(eng, units, cur)
    // At least one unit runs whenever there is work: the deadline is read after it.
    ensures eng.nextUnit.Some? ==> units >= 1
    // The slice yields only when the deadline says so, and not before.
    ensures cur.nextUnit.Some? ==> remaining(units) < 1
    ensures forall k :: 1 <= k < units ==> remaining(k) >= 1
  {
    cur := eng;
    var shouldYield := false;
    units := 0;
    while cur.nextUnit.Some? && !shouldYield
      invariant Ran(eng, units, cur) && units <= bound
      invariant eng.nextUnit.Some? && (shouldYield || cur.nextUnit.None?) ==> units >= 1
      invariant shouldYield ==> remaining(units) < 1
      invariant forall k :: 1 <= k < units ==> remaining(k) >= 1
      invariant units >= 1 && !shouldYield ==> remaining(units) >= 1
      decreases bound - units
    {
      cur := Advance(eng, units, cur);
      units := units + 1;
      shouldYield := remaining(units) < 1;
    }
  }

  /** `r` is the commit of the finished run of `total` units from `eng`, every
      one of which ran. */
  ghost predicate CommittedRun(eng: Engine, total: nat, r: Engine)
    requires Ready(eng)
  {
    var fin := Run(eng, total).0;
    && |Run(eng, total).1| == total
    && fin.nextUnit.None? && fin.wipRoot.Some?
    && (forall j :: 0 <= j < |fin.fibers| ==> fin.fibers[j].dom.Some?)
    && r == CommitRoot(fin)
  }

  /** `workLoop(deadline)`. `remaining(k)` is what `deadline.timeRemaining()`
      returns after the `k`-th unit of the slice. Returns the new state and the
      number of units performed. */
  method WorkLoop(eng: Engine, remaining: nat -> int) returns (r: Engine, units: nat)
    requires Inv(eng)
    ensures Inv(r)
    ensures var run := Run(eng, units);
      && |run.1| == units
      && r.fibers == run.0.fibers && r.nextUnit == run.0.nextUnit
      && (eng.nextUnit.Some? ==> units >= 1)
      && (r.nextUnit.Some? ==> remaining(units) < 1)
      && (forall k :: 1 <= k < units ==> remaining(k) >= 1)
      // The root is committed exactly when no work is left and a root is pending.
      && (run.0.nextUnit.None? && eng.wipRoot.Some? ==>
            && (forall j :: 0 <= j < |run.0.fibers| ==> run.0.fibers[j].dom.Some?)
            && r == CommitRoot(run.0))
      && (!(run.0.nextUnit.None? && eng.wipRoot.Some?) ==> r == run.0)
    ensures r.wipRoot.Some? ==> r.wipRoot == eng.wipRoot
    ensures eng.wipRoot.Some? && r.wipRoot.None? ==> CommittedRun(eng, units, r)
    ensures eng.wipRoot.Some? && r.wipRoot.Some? ==> units >= 1 && r.nextUnit.Some?
    ensures !(eng.wipRoot.Some? && r.wipRoot.None?) ==> r == Run(eng, units).0
    ensures eng.nextUnit.None? && eng.wipRoot.None? ==> r == eng && units == 0
  {
    var cur;
    RunBounded(eng);
    cur, units := PerformSlice(eng, remaining, |Todo(eng)|);
    RunKeepsInv(eng, units);
    if cur.nextUnit.None? && cur.wipRoot.Some? {
      CommitKeepsInv(cur);
      r := CommitRoot(cur);
    } else {
      r := cur;
    }
  }

  /** A slice that starts where a run of `total` units from `eng` ended and
      performs `units` more: the two form one run. */
  lemma SliceExtends(eng: Engine, total: nat, prev: Engine, units: nat)
    requires Ready(eng) && Ready(prev) && Ran(eng, total, prev) && |Run(prev, units).1| == units
    ensures Ran(eng, total + units, Run(prev, units).0)
  {
    RunAdd(eng, total, units);
  }

  /** A commit at the end of a slice that continues a run commits the whole
      run. */
  lemma SliceCommits(eng: Engine, total: nat, prev: Engine, units: nat, r: Engine)
    requires Ready(eng) && Ready(prev) && Ran(eng, total, prev) && CommittedRun(prev, units, r)
    ensures CommittedRun(eng, total + units, r)
  {
    RunAdd(eng, total, units);
  }

  /** After its commit, the engine has no work and no root left. */
  lemma CommittedIdle(eng: Engine, total: nat, r: Engine)
    requires Ready(eng) && CommittedRun(eng, total, r)
    ensures r.nextUnit.None? && r.wipRoot.None?
  {
  }

  /** One idle callback before any commit: `cur` is where a run of `total`
      units from `eng` stands. The slice extends that run by `sum - total`
      units; it commits exactly when it ends the run of a pending root, and
      otherwise, with a root pending, it performs at least one unit and leaves
      work. */
  method PendingCallback(ghost eng: Engine, ghost total: nat, cur: Engine, remaining: nat -> int)
    returns (r: Engine, committed: bool, ghost sum: nat)
    requires Inv(eng) && Inv(cur) && cur.wipRoot == eng.wipRoot && Ran(eng, total, cur)
    ensures Inv(r) && sum >= total
    ensures committed <==> eng.wipRoot.Some? && r.wipRoot.None?
    ensures committed ==> CommittedRun(eng, sum, r)
    ensures !committed ==> r.wipRoot == eng.wipRoot && Ran(eng, sum, r)
    ensures !committed && eng.wipRoot.Some? ==> sum > total && r.nextUnit.Some?
  {
    var units;
    r, units := WorkLoop(cur, remaining);
    committed := cur.wipRoot.Some? && r.wipRoot.None?;
    if committed {
      SliceCommits(eng, total, cur, units, r);
    } else {
      SliceExtends(eng, total, cur, units);
    }
    sum := total + units;
  }

  /** The browser's idle callbacks: `workLoop` runs once per deadline, each call
      re-registering the next. Returns the final state, how many slices
      committed a root, and (ghost) how many units all slices performed. Without
      a `render` in between, the slices together are one run of `total` units:
      before a commit the state is that run's state, and a commit, which happens
      at most once and only for the pending root, commits that run's final
      state. While a root is pending, every callback performs at least one
      unit, so `total` grows with the number of callbacks. */
  method Drive(eng: Engine, deadlines: seq<nat -> int>) returns (r: Engine, commits: nat, ghost total: nat)
    requires Inv(eng)
    ensures Inv(r)
    ensures commits <= 1 && (commits == 1 ==> eng.wipRoot.Some? && r.wipRoot.None?)
    ensures commits == 0 ==> r.wipRoot == eng.wipRoot && Ran(eng, total, r)
    ensures commits == 1 ==> CommittedRun(eng, total, r)
    ensures commits == 0 && eng.wipRoot.Some? ==> total >= |deadlines|
    ensures commits == 0 && eng.wipRoot.Some? && |deadlines| > 0 ==> r.nextUnit.Some?
  {
    r := eng;
    commits := 0;
    total := 0;
    for n := 0 to |deadlines|
      invariant Inv(r)
      invariant commits <= 1 && (commits == 1 ==> eng.wipRoot.Some? && r.wipRoot.None?)
      invariant commits == 0 ==> r.wipRoot == eng.wipRoot && Ran(eng, total, r)
      invariant commits == 1 ==> CommittedRun(eng, total, r)
      invariant commits == 0 && eng.wipRoot.Some? ==> total >= n
      invariant commits == 0 && eng.wipRoot.Some? && n > 0 ==> r.nextUnit.Some?
    {
      if commits == 1 {
        // Committed: the engine is idle, and the slice leaves it alone.
        CommittedIdle(eng, total, r);
        var units;
        r, units := WorkLoop(r, deadlines[n]);
      } else {
        var committed;
        r, committed, total := PendingCallback(eng, total, r, deadlines[n]);
        if committed {
          commits := 1;
        }
      }
    }
  }

  /** `render` followed by any number of idle callbacks: if a slice commits,
      it commits exactly the finished run `Commit.RenderThenCommit` describes,
      however the units were spread over slices. */
  method RenderThenDrive(eng: Engine, element: Element, container: Option<HostId>, deadlines: seq<nat -> int>)
    returns (r: Engine, commits: nat)
    requires ContainerOk(eng.host, container)
    ensures commits <= 1
    ensures commits == 0 ==> r.wipRoot == Some(0)
    ensures |deadlines| > Size(element) ==> commits == 1
    ensures commits == 1 ==>
      var fin := Run(Render(eng, element, container), Size(element) + 1).0;
      && (forall j :: 0 <= j < |fin.fibers| ==> fin.fibers[j].dom.Some?)
      && r == CommitRoot(fin)
      && r.host.log == eng.host.log + Appends(fin.fibers, RootCommitOrder(fin))
  {
    var start := Render(eng, element, container);
    RenderInv(eng, element, container);
    ghost var total;
    r, commits, total := Drive(start, deadlines);
    RenderVisitsEachElementOnce(eng, element, container);
    if commits == 1 {
      RunFinishedAgree(start, total, Size(element) + 1);
    } else {
      // A run of `total` units that all ran cannot outlast the render's
      // Size + 1 units, so a pending root after more callbacks is impossible.
      RunBounded(start);
    }
  }
}

=== FILE: traversal.dfy ===
/**
 * Traversal: repeating the unit of work from the root `render` seeds visits the
 * rendered tree exactly once, in depth-first pre-order, and then stops.
 *
 * The invariant `Inv` reads the links as a to-do list: the fibers still to be
 * started (`PendingOf`) have no children yet, every other fiber is finished
 * (its host node exists and its child chain mirrors its child elements), and
 * `Todo` — the pre-order listing of the pending fibers' elements — is exactly
 * what the walk still has to visit.
 */
module Traversal {
  import opened Wrappers
  import opened Elements
  import opened Host
  import opened Fibers
  import opened Links
  import opened Planning
  import opened Engine

  /** No index occurs twice. */
  predicate Distinct(xs: seq<nat>)
  {
    forall p, q :: 0 <= p < q < |xs| ==> xs[p] != xs[q]
  }

  /** Fiber `j` has been through its unit of work: it has a host node and its
      child chain mirrors its child elements. */
  ghost predicate Processed(a: Arena, j: nat)
    requires Valid(a) && j < |a|
  {
    a[j].dom.Some? && Views(a, Chain(a, j)) == a[j].children
  }

  /** The fibers still to be started, the next unit first. */
  ghost function PendingOf(eng: Engine): (pending: seq<nat>)
    requires Ready(eng)
  {
    Pending(eng.fibers, eng.nextUnit)
  }

  ghost predicate Inv(eng: Engine)
  {
    && Ready(eng)
    && (eng.wipRoot.Some? ==> eng.wipRoot.value == 0)
    && var p := PendingOf(eng);
       && Distinct(p)
       && (forall k :: 0 <= k < |p| ==> eng.fibers[p[k]].firstChild.None?)
       && (forall j :: 0 <= j < |eng.fibers| && j !in p ==> Processed(eng.fibers, j))
  }

  /** The elements the walk still has to visit, in visiting order. */
  ghost function Todo(eng: Engine): (todo: seq<Element>)
    requires Ready(eng)
  {
    PreOrderAll(Views(eng.fibers, PendingOf(eng)))
  }

  lemma ViewsAppend(a: Arena, xs: seq<nat>, ys: seq<nat>)
    requires forall k :: 0 <= k < |xs| ==> xs[k] < |a|
    requires forall k :: 0 <= k < |ys| ==> ys[k] < |a|
    ensures Views(a, xs + ys) == Views(a, xs) + Views(a, ys)
  {
  }

  /** Views of old fibers read the same in an arena that keeps their elements. */
  lemma ViewsStable(a: Arena, b: Arena, xs: seq<nat>)
    requires |a| <= |b| && forall j :: 0 <= j < |a| ==> View(b[j]) == View(a[j])
    requires forall k :: 0 <= k < |xs| ==> xs[k] < |a|
    ensures Views(b, xs) == Views(a, xs)
  {
  }

  /** The state `render` seeds satisfies the invariant, and what is left to visit
      is the root and then the whole rendered tree in pre-order. */
  lemma RenderInv(eng: Engine, element: Element, container: Option<HostId>)
    requires ContainerOk(eng.host, container)
    ensures var r := Render(eng, element, container);
      && Inv(r) && PendingOf(r) == [0]
      && Todo(r) == [Element("", map[], [element])] + PreOrder(element)
  {
    var r := Render(eng, element, container);
    assert LinksOk(r.fibers, 0);
    assert Cont(r.fibers, 0) == [];
    assert PendingOf(r) == [0];
    var root := Element("", map[], [element]);
    assert Views(r.fibers, [0]) == [root];
    assert PreOrderAll([root]) == PreOrder(root) + PreOrderAll([]);
    assert PreOrderAll([element]) == PreOrder(element) + PreOrderAll([]);
  }

  /** The pending list after a unit of work: the new children, then the rest. */
  lemma StepPending(eng: Engine)
    requires Inv(eng) && eng.nextUnit.Some?
    ensures var r := Step(eng);
      && PendingOf(eng) == [eng.nextUnit.value] + PendingOf(eng)[1..]
      && PendingOf(r) == Range(|eng.fibers|, |r.fibers|) + PendingOf(eng)[1..]
  {
    var a := eng.fibers;
    var c := eng.nextUnit.value;
    assert PendingOf(eng)[1..] == Cont(a, c);
    assert a[c].firstChild.None? by {
      assert PendingOf(eng)[0] == c;
    }
    PlanPending(a, eng.host, c);
  }

  lemma DistinctRangePrefix(lo: nat, hi: nat, ys: seq<nat>)
    requires lo <= hi && Distinct(ys) && forall k :: 0 <= k < |ys| ==> ys[k] < lo
    ensures Distinct(Range(lo, hi) + ys)
  {
  }

  /** Every fiber other than the one just processed keeps its processed status. */
  lemma StepKeepsProcessed(eng: Engine, j: nat)
    requires Ready(eng) && eng.nextUnit.Some? && j < |eng.fibers| && j != eng.nextUnit.value
    requires Processed(eng.fibers, j)
    ensures Processed(Step(eng).fibers, j)
  {
    var a := eng.fibers;
    var c := eng.nextUnit.value;
    var r := Step(eng).fibers;
    UnitOfWorkAddsChildren(a, eng.host, c);
    assert r[j] == a[j];
    assert LinksOk(a, j);
    ChainFromFrame(a, r, a[j].firstChild);
    assert Chain(r, j) == Chain(a, j);
    ViewsStable(a, r, Chain(a, j));
  }

  /** The fiber just processed is processed. */
  lemma StepProcessesCurrent(eng: Engine)
    requires Inv(eng) && eng.nextUnit.Some?
    ensures Processed(Step(eng).fibers, eng.nextUnit.value)
  {
    var a := eng.fibers;
    var c := eng.nextUnit.value;
    assert a[c].firstChild.None? by {
      assert PendingOf(eng)[0] == c;
    }
    ChildChainMirrorsElements(a, eng.host, c);
  }

  /** The pending list after a unit of work has no repeats. */
  lemma StepDistinct(eng: Engine)
    requires Inv(eng) && eng.nextUnit.Some?
    ensures Distinct(PendingOf(Step(eng)))
  {
    var p := PendingOf(eng);
    StepPending(eng);
    DistinctRangePrefix(|eng.fibers|, |Step(eng).fibers|, p[1..]);
  }

  /** The fibers pending after a unit of work have not been processed. */
  lemma StepPendingFresh(eng: Engine)
    requires Inv(eng) && eng.nextUnit.Some?
    ensures var p' := PendingOf(Step(eng));
      forall k :: 0 <= k < |p'| ==> Step(eng).fibers[p'[k]].firstChild.None?
  {
    var a := eng.fibers;
    var c := eng.nextUnit.value;
    var r := Step(eng).fibers;
    var p := PendingOf(eng);
    StepPending(eng);
    var p' := PendingOf(Step(eng));
    UnitOfWorkAddsChildren(a, eng.host, c);
    forall k | 0 <= k < |p'|
      ensures r[p'[k]].firstChild.None?
    {
      if k < |r| - |a| {
        assert p'[k] == |a| + k;
        assert NewChildAt(a, c, r, k);
      } else {
        assert p'[k] == p[k - (|r| - |a|) + 1];
        assert p[0] == c;
      }
    }
  }

  lemma InRangePrefix(lo: nat, hi: nat, ys: seq<nat>, j: nat)
    requires lo <= j < hi
    ensures j in Range(lo, hi) + ys
  {
    assert (Range(lo, hi) + ys)[j - lo] == j;
  }

  lemma NotInRangePrefix(lo: nat, hi: nat, ys: seq<nat>, j: nat)
    requires lo <= hi && j < hi && j !in Range(lo, hi) + ys
    ensures j < lo
  {
    if j >= lo {
      InRangePrefix(lo, hi, ys, j);
    }
  }

  /** Every fiber not pending after a unit of work has been processed. */
  lemma StepProcessed(eng: Engine, j: nat)
    requires Inv(eng) && eng.nextUnit.Some?
    requires j < |Step(eng).fibers| && j !in PendingOf(Step(eng))
    ensures Processed(Step(eng).fibers, j)
  {
    var a := eng.fibers;
    var c := eng.nextUnit.value;
    var r := Step(eng).fibers;
    var p := PendingOf(eng);
    StepPending(eng);
    var p' := PendingOf(Step(eng));
    NotInRangePrefix(|a|, |r|, p[1..], j);
    if j == c {
      StepProcessesCurrent(eng);
    } else {
      assert j !in p;
      StepKeepsProcessed(eng, j);
    }
  }

  /** One unit of work keeps the invariant. */
  lemma StepInv(eng: Engine)
    requires Inv(eng) && eng.nextUnit.Some?
    ensures Inv(Step(eng))
  {
    var s := Step(eng);
    StepDistinct(eng);
    StepPendingFresh(eng);
    forall j | 0 <= j < |s.fibers| && j !in PendingOf(s)
      ensures Processed(s.fibers, j)
    {
      StepProcessed(eng, j);
    }
  }

  /** Visiting a node and then the forest of its children followed by `rest`
      is the pre-order listing of the node followed by `rest`. */
  lemma PreOrderVisit(v: Element, rest: seq<Element>)
    ensures PreOrderAll([v] + rest) == [v] + PreOrderAll(v.children + rest)
  {
    assert ([v] + rest)[1..] == rest;
    PreOrderAllAppend(v.children, rest);
  }

  /** The elements of the fibers a unit of work creates, in creation order. */
  lemma NewViews(a: Arena, c: nat, r: Arena)
    requires AddsChildren(a, c, r)
    ensures Views(r, Range(|a|, |r|)) == a[c].children
  {
    forall k | 0 <= k < |r| - |a|
      ensures View(r[|a| + k]) == a[c].children[k]
    {
      assert NewChildAt(a, c, r, k);
    }
  }

  /** The elements still to be visited after a unit of work: the children of the
      processed fiber, then those that were pending behind it. */
  lemma StepViews(eng: Engine)
    requires Inv(eng) && eng.nextUnit.Some?
    ensures var c := eng.nextUnit.value;
      Views(Step(eng).fibers, PendingOf(Step(eng)))
        == eng.fibers[c].children + Views(eng.fibers, PendingOf(eng)[1..])
  {
    var a := eng.fibers;
    var c := eng.nextUnit.value;
    var r := Step(eng).fibers;
    var rest := PendingOf(eng)[1..];
    StepPending(eng);
    var kids := Range(|a|, |r|);
    UnitOfWorkAddsChildren(a, eng.host, c);
    NewViews(a, c, r);
    ViewsAppend(r, kids, rest);
    ViewsStable(a, r, rest);
  }

  /** One unit of work visits exactly the first element still to be visited. */
  lemma StepTodo(eng: Engine)
    requires Inv(eng) && eng.nextUnit.Some?
    ensures Todo(eng) == [View(eng.fibers[eng.nextUnit.value])] + Todo(Step(eng))
  {
    var a := eng.fibers;
    var c := eng.nextUnit.value;
    var p := PendingOf(eng);
    var rest := p[1..];
    StepViews(eng);
    assert p == [c] + rest by {
      StepPending(eng);
    }
    ViewsAppend(a, [c], rest);
    PreOrderVisit(View(a[c]), Views(a, rest));
  }

  /** The first visit of a run is to a fiber that none of the later visits
      reaches again. */
  lemma StepFresh(eng: Engine, t: seq<nat>, fin: Engine)
    requires Inv(eng) && eng.nextUnit.Some?
    requires forall j :: j in t ==> j in PendingOf(Step(eng)) || |Step(eng).fibers| <= j < |fin.fibers|
    ensures eng.nextUnit.value !in t
  {
    var c := eng.nextUnit.value;
    var p := PendingOf(eng);
    StepPending(eng);
    assert p[0] == c;
    if c in t {
      NotInRange(|eng.fibers|, |Step(eng).fibers|, p[1..], c);
    }
  }

  lemma NotInRange(lo: nat, hi: nat, ys: seq<nat>, j: nat)
    requires j < lo <= hi && j !in ys
    ensures j !in Range(lo, hi) + ys
  {
  }

  /** The fibers a run from `Step(eng)` visits, together with the fiber `eng`
      visits first, are the pending fibers of `eng` and the fibers created since. */
  lemma StepCoverage(eng: Engine, t: seq<nat>, fin: Engine)
    requires Inv(eng) && eng.nextUnit.Some? && |Step(eng).fibers| <= |fin.fibers|
    requires forall j :: j in t <==> j in PendingOf(Step(eng)) || |Step(eng).fibers| <= j < |fin.fibers|
    ensures forall j :: j in [eng.nextUnit.value] + t <==> j in PendingOf(eng) || |eng.fibers| <= j < |fin.fibers|
  {
    var a := eng.fibers;
    var r := Step(eng).fibers;
    var p := PendingOf(eng);
    StepPending(eng);
    forall j
      ensures j in [eng.nextUnit.value] + t <==> j in p || |a| <= j < |fin.fibers|
    {
      if |a| <= j < |r| {
        InRangePrefix(|a|, |r|, p[1..], j);
      }
    }
  }

  /** `trace` is a complete walk from `eng` ending in `fin`: it visits the
      elements still to do in order, each fiber once, exactly the pending fibers
      and the ones created since, and stops with no next unit. */
  ghost predicate Walked(eng: Engine, fin: Engine, trace: seq<nat>)
  {
    && Ready(eng) && fin.nextUnit.None?
    && (forall k :: 0 <= k < |trace| ==> trace[k] < |fin.fibers|)
    && Views(fin.fibers, trace) == Todo(eng)
    && Distinct(trace)
    && (forall j :: j in trace <==> j in PendingOf(eng) || |eng.fibers| <= j < |fin.fibers|)
    && |fin.fibers| + |PendingOf(eng)| == |eng.fibers| + |Todo(eng)|
  }

  /** The elements a walk from after the first unit visits, preceded by that
      unit's element, are the elements still to do before it. */
  lemma ConsTodo(eng: Engine, fin: Engine, t: seq<nat>)
    requires Inv(eng) && eng.nextUnit.Some?
    requires eng.nextUnit.value < |eng.fibers| <= |fin.fibers|
    requires forall k :: 0 <= k < |t| ==> t[k] < |fin.fibers|
    requires View(fin.fibers[eng.nextUnit.value]) == View(eng.fibers[eng.nextUnit.value])
    requires Views(fin.fibers, t) == Todo(Step(eng))
    ensures forall k :: 0 <= k < |[eng.nextUnit.value] + t| ==> ([eng.nextUnit.value] + t)[k] < |fin.fibers|
    ensures Views(fin.fibers, [eng.nextUnit.value] + t) == Todo(eng)
  {
    StepTodo(eng);
    ViewsAppend(fin.fibers, [eng.nextUnit.value], t);
  }

  /** Walking one unit more keeps the count of fibers created against elements
      visited. */
  lemma ConsCount(eng: Engine, fin: Engine)
    requires Inv(eng) && eng.nextUnit.Some?
    requires |fin.fibers| + |PendingOf(Step(eng))| == |Step(eng).fibers| + |Todo(Step(eng))|
    ensures |fin.fibers| + |PendingOf(eng)| == |eng.fibers| + |Todo(eng)|
  {
    StepTodo(eng);
    StepPending(eng);
  }

  /** A complete walk from after the first unit of work, preceded by that unit's
      fiber, is a complete walk from before it. */
  lemma WalkedCons(eng: Engine, fin: Engine, t: seq<nat>)
    requires Inv(eng) && eng.nextUnit.Some?
    requires Walked(Step(eng), fin, t)
    requires |Step(eng).fibers| <= |fin.fibers|
    requires forall j :: 0 <= j < |eng.fibers| ==> View(fin.fibers[j]) == View(eng.fibers[j])
    ensures Walked(eng, fin, [eng.nextUnit.value] + t)
  {
    ConsTodo(eng, fin, t);
    StepFresh(eng, t, fin);
    StepCoverage(eng, t, fin);
    ConsCount(eng, fin);
    DistinctCons(eng.nextUnit.value, t);
  }

  /** A value not in a sequence without repeats can be put in front of it. */
  lemma DistinctCons(x: nat, t: seq<nat>)
    requires Distinct(t) && x !in t
    ensures Distinct([x] + t)
  {
    var xs := [x] + t;
    forall p, q | 0 <= p < q < |xs| ensures xs[p] != xs[q] {
      assert xs[q] == t[q - 1];
      if p > 0 {
        assert xs[p] == t[p - 1];
      }
    }
  }

  /** With no next unit, the empty run is a complete walk. */
  lemma WalkedIdle(eng: Engine, fuel: nat)
    requires Inv(eng) && eng.nextUnit.None?
    ensures Walked(eng, Run(eng, fuel).0, Run(eng, fuel).1)
  {
    assert PendingOf(eng) == [];
  }

  /** The inductive step of `RunWalksTodo`: a complete walk from after the first
      unit of work gives one from before it. */
  lemma WalkedStep(eng: Engine, fuel: nat)
    requires Inv(eng) && eng.nextUnit.Some? && fuel > 0
    requires Walked(Step(eng), Run(Step(eng), fuel - 1).0, Run(Step(eng), fuel - 1).1)
    ensures Walked(eng, Run(eng, fuel).0, Run(eng, fuel).1)
  {
    var s := Step(eng);
    var fin := Run(s, fuel - 1).0;
    var t := Run(s, fuel - 1).1;
    RunCons(eng, fuel - 1);
    assert Run(eng, fuel) == (fin, [eng.nextUnit.value] + t);
    RunKeepsViews(eng, fuel);
    WalkedCons(eng, fin, t);
  }

  /** Theorem: running units of work from a state satisfying the invariant, with
      enough budget, visits each pending fiber and each fiber created on the way
      exactly once, visits their elements in depth-first pre-order, creates one
      fiber per element, and stops with no next unit. */
  lemma {:induction false} RunWalksTodo(eng: Engine, fuel: nat)
    requires Inv(eng) && fuel >= |Todo(eng)|
    ensures Walked(eng, Run(eng, fuel).0, Run(eng, fuel).1)
    decreases |Todo(eng)|
  {
    if eng.nextUnit.Some? {
      var s := Step(eng);
      StepInv(eng);
      StepTodo(eng);
      RunWalksTodo(s, fuel - 1);
      WalkedStep(eng, fuel);
    } else {
      WalkedIdle(eng, fuel);
    }
  }

  /** Every prefix of a run keeps the invariant. */
  lemma {:induction false} RunKeepsInv(eng: Engine, n: nat)
    requires Inv(eng)
    ensures Inv(Run(eng, n).0)
    decreases n
  {
    if n > 0 && eng.nextUnit.Some? {
      StepInv(eng);
      RunKeepsInv(Step(eng), n - 1);
      RunKeepsInvStep(eng, n);
    }
  }

  /** The inductive step of `RunKeepsInv`. */
  lemma RunKeepsInvStep(eng: Engine, n: nat)
    requires Ready(eng) && eng.nextUnit.Some? && n > 0
    requires Inv(Run(Step(eng), n - 1).0)
    ensures Inv(Run(eng, n).0)
  {
    RunCons(eng, n - 1);
  }

  /** Theorem: from the root `render` seeds, `Size(element) + 1` units of work
      visit the root and then every element of the rendered tree exactly once, in
      depth-first pre-order; each element gets exactly one fiber, every fiber is
      visited, and the walk ends with no next unit. */
  lemma RenderVisitsEachElementOnce(eng: Engine, element: Element, container: Option<HostId>)
    requires ContainerOk(eng.host, container)
    ensures var run := Run(Render(eng, element, container), Size(element) + 1);
      && run.0.nextUnit.None?
      && Inv(run.0)
      && |run.1| == |run.0.fibers| == Size(element) + 1
      && run.1[0] == 0
      && (forall k :: 0 <= k < |run.1| ==> run.1[k] < |run.0.fibers|)
      && Views(run.0.fibers, run.1) == [Element("", map[], [element])] + PreOrder(element)
      && Distinct(run.1)
      && forall j :: 0 <= j < |run.0.fibers| ==> j in run.1
  {
    var r := Render(eng, element, container);
    RenderInv(eng, element, container);
    PreOrderLength(element);
    RunWalksTodo(r, Size(element) + 1);
    RunKeepsInv(r, Size(element) + 1);
  }
}

=== FILE: wrappers.dfy ===
/** The optional-value type used for the nullable links and host nodes of a fiber. */
module Wrappers {

  /** `None` stands for JavaScript's `null`/`undefined` in a link or field. */
  datatype Option<+T> = None | Some(value: T) {

    /** The held value, or `default` when there is none. */
    function GetOr(default: T): (v: T) {
      match this
      case Some(v) => v
      case None => default
    }
  }
}
